=== FILE: README.md ===
# Antialiased polyline renderer — Dafny model

This project models the core of a small `no_std` Rust crate that draws
antialiased polylines into a pixel sink:

- `AABB` is an axis-aligned box of `u16` pixels. `insert` is meant to widen it
  so that it holds one more pixel.
  `fit_in_aabb` scales and moves continuous `Coord2D` points into the box, and
  panics through eight range asserts when a point does not fit.
- `Renderer::draw_lines` draws `data.len() - 1` segments in input order, each
  with the colour `0xFAFAFAFA`. It ignores its `aabb` argument.
- `Renderer::draw_line` orders the endpoints and builds a clip box from the
  segment's own truncated endpoints. It then steps along x when the gradient
  lies in `[-1, 1]`, and along y otherwise. Each step splits the colour
  between two neighbouring pixels by the fractional part of the minor
  coordinate, and hands a pixel to the sink only if it lies in the clip box.
- `Pixel16` and `Coord2D` are the two point types. `Coord2D` has `+`, `+=`,
  `-`, `-=` and `* f32`.

Modelling conventions:

- `f32` is idealised as `real`.
- The casts `as u16`, `as i32` and `as u32` truncate toward zero and then
  saturate (module `Casts`).
- The pixel sink is modelled by what it receives: the sequence of
  `Write(x, y, color)` calls, in emission order. A panic is part of the
  result (`Drawn(writes, panic)`), so the writes made before a panic stay
  visible, as they would at the sink.
- `fit_in_aabb` returns `Result<seq<Coord2D>, FitError>`. Its errors are
  `u16` underflow of `max - min` and a failed assert. Division by a zero data
  extent does not panic on floats: the scale factor is a `Factor`, either a
  real number, `+inf` or NaN, and `minf` compares these as `f32` does
  (comparisons with NaN are false). An axis without extent thus yields to
  the other axis's factor (`FitProperties.FlatDataUsesOtherAxis`), and empty
  data give an empty result.
- With overflow checks on, `draw_line` panics with `RangeOverflow` when the
  loop end `max + 1` of the stepped axis reaches 65536.
- `draw_line` panics with `DecimalOutOfRange` when its fractional-part assert
  fails. This happens on NaN (coincident endpoints). It also happens when a
  saturated `as i32` makes the fractional part exceed 1.
- `draw_lines` panics with `LengthUnderflow` on an empty vector.

Quirks of the code that the model keeps as written:

- The extrema accumulators of `fit_in_aabb` start at 0.0, so the origin is
  always part of the data span.
- The offset of `fit_in_aabb` is not multiplied by the factor. As a result,
  negative data can break the upper bound
  (`FitProperties.NegativeDataFailsAssert`), though a small negative minimum
  still fits (`FitProperties.NegativeDataCanFit`).
- The steep branch of `draw_line` computes the column as
  `((y - aabb.min.y) - left.y) / gradient`. The row is already taken
  relative to the box, so subtracting the start row `left.y` counts it twice,
  and `aabb.min.x` is never added back. The samples therefore lie on the
  segment's own line, less the signed per-segment constant
  `left.x + aabb.min.y / gradient` (`RendererProperties.SteepSampleShift`).
  For a positive gradient the shift is to the left: often the samples land
  left of the clip box and are dropped (`RendererProperties.SteepScenario`,
  `RendererProperties.VerticalSegmentDrawsNothing`), and sometimes inside
  it, at the wrong columns (`RendererProperties.SteepRowShifted`). For a
  negative gradient the constant can be negative, and the samples can land
  right of the box (`RendererProperties.SteepSampleRightOfBox`).
- A horizontal segment on pixel row `r >= 1` keeps only its zero-weight
  pixel, because the full-weight one lies on row `r - 1`, outside the clip
  box (`RendererProperties.HorizontalRowDrawnWithZeroWeight`). On row 0 the
  saturating cast puts the full-weight pixel on row 0 too, and both are kept.
- On an `x` tie the x-ordered endpoints keep `p1` first. A vertical segment
  has an infinite gradient, takes the steep branch and samples `x = 0`.

The doc comment of `insert` promises that the box only grows to fit the
pixel. The code instead computes the new `min` from the already updated
`max`, so `min` becomes the pixel itself. The model follows the code and logs the
difference under Findings.

Modules:

- `Results`: `Result` and `Option`.
- `Casts`: the numeric casts.
- `Coordinates`: `src/coordinates.rs`.
- `Aabb`: `minf`, `maxf`, `insert` and `fit_in_aabb`.
- `FitProperties`: when the fit succeeds or fails.
- `Renderer`: `draw_line` and `draw_lines`.
- `RendererProperties`: axis choice, symmetry, panics, characteristic
  segments and polyline composition.
- `ScreenTest`: the crate's own end-to-end test.

## Model

| member | source | states |
|---|---|---|
| Casts.CastU16 | src/lib.rs:132-141 | `as u16` gives 0 for non-positive values, 65535 from 65535 up, and the integer part in between |
| Casts.CastI32 | src/lib.rs:149 | `as i32` is truncation toward zero inside the `i32` range and saturates outside it |
| Casts.CastU32 | src/lib.rs:158-159 | `as u32` gives 0 for non-positive values and the integer part of in-range ones |
| Casts.CastU16Monotone | src/lib.rs:132-141 | the saturating cast preserves order, which is why the segment clip box is ordered |
| Coordinates.PixelInRange | src/coordinates.rs:4-10 | pixel coordinates are never negative and fit in 16 bits |
| Coordinates.AddAssign | src/coordinates.rs:31-38 | `+=` leaves `self` equal to `self + other`, and subtracting `other` again restores it |
| Coordinates.SubAssign | src/coordinates.rs:51-58 | `-=` leaves `self` equal to `self - other`, and adding `other` again restores it |
| Coordinates.AddComponentwise | src/coordinates.rs:20-29 | addition is per axis and commutative, has the origin as its unit, and is undone by subtraction |
| Coordinates.SubComponentwise | src/coordinates.rs:40-49 | subtraction is per axis, undone by addition, and a point minus itself is the origin |
| Coordinates.MulUniform | src/coordinates.rs:60-69 | scaling multiplies both axes by one factor, distributes over addition, composes multiplicatively, and scaling by 1 is the identity |
| Aabb.MinF | src/lib.rs:13-16 | `minf` is at most both arguments and equals one of them |
| Aabb.MaxF | src/lib.rs:18-21 | `maxf` is at least both arguments and equals one of them |
| Aabb.Insert | src/lib.rs:35-47 | as written, the new `max` is the larger of pixel and old `max`, and the new `min` is always the inserted pixel itself |
| Aabb.InsertShrinksBox | src/lib.rs:36-46 | inserting (5,5) into (0,0)-(10,10) yields a box that no longer contains the original box |
| Aabb.InsertIntended | src/lib.rs:36-38 | the intended `insert` contains the pixel and, for an ordered box, the whole old box |
| Aabb.InsertIntendedIsLeastExtension | src/lib.rs:36-38 | the intended `insert` is the smallest box holding both, and a pixel already inside changes nothing |
| Aabb.ScanExtrema | src/lib.rs:54-64 | the accumulators bound every point, include 0, and each one is 0 or attained by some point |
| Aabb.Divide | src/lib.rs:66-67 | the `f32` quotient of a box span by a data extent is a finite factor mapping the extent onto the span exactly when the extent is positive, `+inf` for a positive span over no extent, and NaN for `0 / 0` |
| Aabb.MinFactor | src/lib.rs:13-16 | `minf` on factors: the smaller of two finite ones, a finite one before `+inf`, and otherwise the second argument, so a NaN first is skipped but a NaN second is returned |
| Aabb.FactorChoice | src/lib.rs:66-68 | with extent on both axes the factor is finite, maps neither data span beyond its box span, and is one of the two axis factors; with extent on one axis only it is that axis's finite factor, except that a flat box in y yields NaN; with no extent it is not finite |
| Aabb.ComputeTransform | src/lib.rs:52-71 | it fails exactly when the box is not ordered, and then with `u16` underflow; the offsets never lie below the box minimum, and equal it on an axis exactly when the data are non-negative on that axis |
| Aabb.ScaleAxis | src/lib.rs:75-76 | one axis scaled and clamped: infinite exactly for a positive coordinate under an infinite factor, otherwise non-negative, and 0 under a NaN factor |
| Aabb.ApplyTransform | src/lib.rs:74-80 | under a finite factor a point is scaled by `factor - EPS`, clamped at 0 and moved by offset plus EPS; a NaN factor sends every point to offset plus EPS; an infinite factor makes positive coordinates infinite; every finite image lies at least EPS past the offset |
| Aabb.ScaleAll | src/lib.rs:72-92 | the second loop succeeds exactly when every transformed point is finite and passes the eight asserts, and then returns them in order |
| Aabb.FitInAabb | src/lib.rs:49-94 | underflow exactly for an unordered box; success exactly when every image passes the asserts; empty data give an empty result; on success the output has the input's length, is pointwise the transform, and lies within `[min + EPS, max]` on both axes |
| FitProperties.AxisStaysInSpan | src/lib.rs:75-88 | for a data extent `ext >= 1`, a box span of at least 1 and a factor no larger than `span / ext`, a data coordinate in `[0, ext]` lands within the box span after scaling, clamping and the EPS shift |
| FitProperties.NonNegativeExtrema | src/lib.rs:54-64 | for non-negative data reaching 1, the minima stay 0 and the maxima reach 1 |
| FitProperties.NonNegativeTransform | src/lib.rs:66-71 | with zero data minima, data maxima of at least 1 and a box spanning at least 1 on both axes, the factors are finite, each maps the data maximum onto the box span, the used one is no larger than either, and the offset is the box minimum |
| FitProperties.ImageOf | src/lib.rs:74-80 | a point whose two scaled axes are finite moves by offset plus EPS on each axis |
| FitProperties.PointFitsInBox | src/lib.rs:82-90 | under the transform of data with minima 0: offsets equal to the box minimum, finite axis factors mapping data maxima of at least 1 onto the box spans, and a used factor no larger than either. Then a point in `[0, max]` on both axes passes all eight asserts in an on-screen box spanning at least 1 |
| FitProperties.FitSucceeds | src/lib.rs:49-94 | the fit succeeds for non-negative data reaching 1 on both axes and an on-screen box spanning at least one pixel |
| FitProperties.NegativeDataFailsAssert | src/lib.rs:70-87 | with data reaching -100, the unscaled offset pushes a point past the box, and the fit panics |
| FitProperties.NegativeDataCanFit | src/lib.rs:54-87 | data reaching -0.5 fit into (0,0)-(90,90), shifted by half a pixel |
| FitProperties.SubUnitDataFailsAssert | src/lib.rs:75-87 | data spanning only 0.5 land EPS/2 beyond the box edge, and the fit panics |
| FitProperties.FlatDataUsesOtherAxis | src/lib.rs:66-87 | data without x extent fit: the x factor is `+inf`, `minf` uses the y factor 18, and x maps to the box minimum plus EPS |
| FitProperties.FlatDataTransform | src/lib.rs:54-71 | data without x extent get factors `+inf` and 18, and `minf` picks 18 |
| FitProperties.FlatDataImages | src/lib.rs:74-80 | where that transform sends the two points |
| FitProperties.TransformOf | src/lib.rs:52-71 | for an ordered box, the transform is the two quotients, their `minf` and the offsets |
| FitProperties.OriginOnlyFits | src/lib.rs:66-87 | data at the origin only fit: both factors are `+inf`, and the NaN of `0 * inf` is clamped to 0 by `maxf` |
| FitProperties.OriginOnlyTransform | src/lib.rs:54-71 | data at the origin only get `+inf` for both factors and for their `minf` |
| FitProperties.FlatBoxFails | src/lib.rs:79-90 | a box without width or height fails the asserts for any non-empty data |
| FitProperties.InvertedBoxUnderflows | src/lib.rs:52-53 | a box with `min.x > max.x` underflows whatever the data |
| FitProperties.UnitSquareFits | src/lib.rs:219-232 | the crate test's unit square fits into (10,10)-(100,100), with the exact images of the four corners |
| FitProperties.UnitSquareTransform | src/lib.rs:54-71 | the crate test's unit square gets factor 90 and offset 10 on both axes |
| FitProperties.UnitSquareImages | src/lib.rs:74-80 | where the factor-90 transform sends each corner of the unit square |
| FitProperties.FitYields | src/lib.rs:72-93 | when every image fits, the fit returns exactly the images, in order |
| Renderer.OrderByX | src/lib.rs:116-122 | the endpoints ordered by x, with `p1` first on a tie |
| Renderer.OrderByY | src/lib.rs:123-129 | the endpoints ordered by y, with `p1` first on a tie |
| Renderer.SlopeOf | src/lib.rs:130-142 | the gradient is finite exactly when the x coordinates differ, is NaN exactly for coincident endpoints, and satisfies `g * dx == dy` |
| Renderer.SegmentBox | src/lib.rs:132-141 | the clip box is ordered, contains both truncated endpoints, and each bound is the cast of an endpoint |
| Renderer.PlanOf | src/lib.rs:142-146 | the plan is consistent: the box is ordered and the x axis is stepped exactly for a gradient in `[-1, 1]` |
| Renderer.Minor | src/lib.rs:146-183 | the minor coordinate is NaN only for a NaN gradient and 0 for an infinite one; along x it is the start row at the first column; the steep branch gives column 0 on row `aabb.min.y + left.y`, not on the start row, since it subtracts the start row twice and never adds `aabb.min.x` |
| Renderer.Decimal | src/lib.rs:149-153 | the fractional part is non-negative, below 1 and the distance to the truncation inside the `i32` range, and above 1 from 2^31 + 1 up (at 2^31 it is exactly 1, which the assert lets through) |
| Renderer.Weights | src/lib.rs:155-159 | both weights are at most the colour and together lose at most 1 to truncation; a zero fraction gives all weight to the lower pixel |
| Renderer.Candidates | src/lib.rs:155-159 | both candidate pixels sit at the current step and split the colour |
| Renderer.Join | src/lib.rs:147-176 | running parts in order: no panic exactly when no part panics, any panic comes from a part, and every write comes from a part |
| Renderer.JoinStopsAtPanic | src/lib.rs:154 | after the first panicking part nothing more runs, and the run ends with that panic |
| Renderer.Step | src/lib.rs:148-175 | one iteration: NaN panics; otherwise at most two writes, each in the clip box, at the step's coordinate and no brighter than the colour |
| Renderer.JoinLength | src/lib.rs:147-176 | `n` iterations of at most `k` writes each make at most `k * n` writes |
| Renderer.JoinInStepOrder | src/lib.rs:147-176 | iteration `i` writing only at coordinate `lo + i` makes the writes non-decreasing along the stepped axis |
| Renderer.DrawLine | src/lib.rs:108-212 | overflow of `max + 1` panics before any write; otherwise coincident endpoints panic and any other panic is the fractional assert; at most two writes per step |
| Renderer.DrawLineWrites | src/lib.rs:132-176 | every write lies in the segment's clip box, is no brighter than the colour, and the writes advance along the stepped axis |
| Renderer.DrawLines | src/lib.rs:102-106 | an empty vector underflows, one point draws nothing, and otherwise the segments run in order and succeed exactly when every segment does |
| Renderer.DrawLinesWrites | src/lib.rs:102-106 | every write has at most the line colour and lies in some segment's clip box |
| RendererProperties.AxisChoice | src/lib.rs:142-143 | the x axis is stepped exactly when the x coordinates differ and `abs(dy) <= abs(dx)` |
| RendererProperties.PlanSymmetric | src/lib.rs:116-146 | swapping the endpoints changes nothing `draw_line` computes before its loop |
| RendererProperties.DrawLineSymmetric | src/lib.rs:108-212 | `draw_line(p1, p2)` and `draw_line(p2, p1)` make the same writes and panic alike |
| RendererProperties.JoinAppend | src/lib.rs:103-105 | running one more part appends its writes and panic, unless the run already panicked |
| RendererProperties.JoinOfEmpty | src/lib.rs:147-176 | iterations that neither write nor panic produce nothing |
| RendererProperties.JoinOfRow | src/lib.rs:147-176 | iterations that each write one pixel of a row produce that row in order |
| RendererProperties.UnitBoundScales | src/lib.rs:143 | for positive `d`, `-1 <= g <= 1` exactly when `g * d` lies in `[-d, d]` |
| RendererProperties.MinorInRange | src/lib.rs:146-149 | with the start within a billion of the origin, every minor coordinate lies within two billion of the origin, inside the `i32` range |
| RendererProperties.DrawLineTotal | src/lib.rs:149-154 | with in-range y coordinates and no `u16` overflow, only coincident endpoints make `draw_line` panic |
| RendererProperties.FarRightSegmentOverflows | src/lib.rs:138-147 | a flat segment reaching x = 70000 saturates to 65535 and panics on `max + 1` before drawing |
| RendererProperties.SteepStepLeftOfBox | src/lib.rs:183-209 | a steep sample at or just left of column 0 is clipped away by a box starting right of column 0 |
| RendererProperties.VerticalSegmentDrawsNothing | src/lib.rs:177-210 | a vertical segment right of column 0 draws nothing at all |
| RendererProperties.SteepScenario | src/lib.rs:177-210 | (10,10)-(15,17) steps along y over rows 10 to 17 and draws nothing |
| RendererProperties.SteepLine | src/lib.rs:123-143 | for a steep finite gradient `g` (never 0), both endpoints lie on `x = left.x + (y - left.y) / g`, with `left` the endpoint of smaller y |
| RendererProperties.SteepSampleShift | src/lib.rs:177-183 | the steep branch's sample on row `s` is that line's column less the per-segment constant `left.x + aabb.min.y / g` |
| RendererProperties.SteepRowShifted | src/lib.rs:180-209 | on (0,10)-(10,50), which ends at column 10, row 50 is sampled at column 7.5 and written at columns 6 and 7 inside the box, at half the colour each |
| RendererProperties.SteepSampleRightOfBox | src/lib.rs:177-209 | (0,120)-(5,100) has gradient -4 and a box of columns 0 to 5; row 100 is sampled at column 25, right of the box, and nothing is written |
| RendererProperties.FlatSlope | src/lib.rs:130-142 | endpoints on one row give gradient 0 |
| RendererProperties.RowStep | src/lib.rs:147-175 | on a flat line lying on row `r >= 1`, each step keeps only the zero-weight pixel on row `r` |
| RendererProperties.HorizontalPlan | src/lib.rs:130-146 | a segment on row `r` steps along x, from its row with gradient 0, in a box one row high |
| RendererProperties.RowSteps | src/lib.rs:147-176 | every iteration of a flat line on row `r >= 1` writes exactly `(x, r, 0)` |
| RendererProperties.RowDrawn | src/lib.rs:147-176 | a flat line on row `r >= 1` writes `(x, r, 0)` for each column, in order, without panicking |
| RendererProperties.HorizontalRowDrawnWithZeroWeight | src/lib.rs:143-176 | a horizontal segment on row `r >= 1` writes exactly one zero-colour pixel per column, left to right |
| RendererProperties.MinorInRangeAlongX | src/lib.rs:146-148 | stepping along x, the minor coordinate moves away from the start row by at most the number of columns stepped |
| RendererProperties.MinorInRangeSteep | src/lib.rs:181-183 | stepping along y, the column is no farther from 0 than the row offset minus the start row |
| RendererProperties.JoinSingle | src/lib.rs:103-105 | a single segment runs as it is |
| RendererProperties.SegmentsExtend | src/lib.rs:103-104 | one more point adds exactly one segment at the end, from the old last point to the new one |
| RendererProperties.SegmentOfPrefix | src/lib.rs:103-104 | adding a point leaves the existing segments unchanged |
| RendererProperties.LastSegment | src/lib.rs:103-104 | the added segment joins the old last point to the new one |
| RendererProperties.PolylineAppend | src/lib.rs:102-106 | a polyline one point longer draws the old polyline and then, unless it panicked, the new last segment |
| RendererProperties.PolylineOfTwo | src/lib.rs:102-106 | a two-point polyline is its single segment |
| RendererProperties.DrawLinesIgnoresBox | src/lib.rs:102-104 | the result does not depend on the `aabb` argument |
| ScreenTest.CastBelow | src/lib.rs:134-139 | a coordinate below a positive bound casts to a pixel below it |
| ScreenTest.DrawLinesOnScreen | src/lib.rs:235-238 | a polyline of points left of x = 480 and above y = 272 writes only on-screen pixels |
| ScreenTest.OnScreenRangeFits | src/lib.rs:147 | a segment between on-screen points never overflows `max + 1` |
| ScreenTest.DrawLinesPanicFree | src/lib.rs:102-106 | a polyline of on-screen points, with no two consecutive points equal, is drawn without panicking |
| ScreenTest.UnitSquareDrawnOnScreen | src/lib.rs:216-239 | the crate test: the fitted unit square passes every assert, draws without panicking, and every pixel satisfies `x < 480` and `y < 272` |

## Left out

- Floating point: `f32` rounding, infinities and NaN are idealised as exact
  reals. Three exceptions are modelled:
  - the NaN and the infinite gradient of `draw_line`;
  - NaN panicking the fractional assert;
  - the saturating float-to-integer casts.

  In `fit_in_aabb` the infinite and NaN factors of a zero data extent, and
  the infinities and NaN they produce when a point is scaled, are modelled
  too. The `!= NAN` asserts of `minf`/`maxf` always hold in `f32`, so they
  are not modelled.
- `color as f32` rounds colours above 2^24 in `f32`. The model multiplies the
  exact colour.
- The pixel sink closure is replaced by the sequence of calls it receives.
  What the closure does with them (the test pushes them into a vector) is not
  part of the model.
- `Vec`, `no_std` and the allocator are not modelled; sequences stand in for
  vectors.
- `src/main.rs` is not part of this model.
- Release builds wrap `max + 1` in `draw_line` and `max - min` in
  `fit_in_aabb` instead of panicking. The model follows a build with
  overflow checks (`RangeOverflow` and `SubtractionOverflow`).
- Coordinates.Add, Coordinates.Sub and Coordinates.Mul carry no contract of
  their own. What they compute is stated by `AddComponentwise`,
  `SubComponentwise` and `MulUniform`.
- Renderer.Decimal: above the `i32` range the fractional part is stated to
  exceed 1 only from 2147483649 up, and not at all below the range.
- Renderer.DrawLine: its contract bounds the writes and their location. The
  exact pixels are pinned only for characteristic segments: horizontal on a
  row, vertical, steep, coincident and overflowing.

## Findings

| source | as written | input that shows it | evidently intended | confidence | as-written member | corrected member |
|---|---|---|---|---|---|---|
| src/lib.rs:43-46 | `insert` computes the new `min` against the already updated `max`, so `min` becomes the inserted pixel itself | box (0,0)-(10,10), insert (5,5): the result is (5,5)-(10,10), which no longer contains the old box | `min` computed against the old `min`, so that the box only grows | high; not executed | Aabb.Insert, Aabb.InsertShrinksBox | Aabb.InsertIntended, Aabb.InsertIntendedIsLeastExtension |

=== FILE: aabb.dfy ===
/** The axis-aligned bounding box of the renderer: widening it by a pixel,
    and fitting a set of continuous points into it. */
module Aabb {
  import opened Casts
  import opened Coordinates
  import opened Results

  /** Margin used by `fit_in_aabb` to keep points off the box edges. */
  const EPS: real := 0.0001

  /** The screen the fitted points are asserted to lie on. */
  const SCREEN_WIDTH: real := 480.0
  const SCREEN_HEIGHT: real := 272.0

  datatype AABB = AABB(min: Pixel16, max: Pixel16)

  /** The box is well-formed: its corners are ordered on both axes. */
  predicate Ordered(box: AABB)
  {
    box.min.x <= box.max.x && box.min.y <= box.max.y
  }

  predicate ContainsPixel(box: AABB, p: Pixel16)
  {
    box.min.x <= p.x <= box.max.x && box.min.y <= p.y <= box.max.y
  }

  predicate ContainsBox(outer: AABB, inner: AABB)
  {
    outer.min.x <= inner.min.x && inner.max.x <= outer.max.x &&
    outer.min.y <= inner.min.y && inner.max.y <= outer.max.y
  }

  /** `minf`: the smaller of two floats. */
  function MinF(a: real, b: real): (r: real)
    ensures r <= a && r <= b
    ensures r == a || r == b
  {
    if a < b then a else b
  }

  /** `maxf`: the larger of two floats. */
  function MaxF(a: real, b: real): (r: real)
    ensures a <= r && b <= r
    ensures r == a || r == b
  {
    if a > b then a else b
  }

  function MinU16(a: u16, b: u16): u16 { if a <= b then a else b }
  function MaxU16(a: u16, b: u16): u16 { if a >= b then a else b }

  // ---------------------------------------------------------------------------
  // insert

  /** `AABB::insert` as written: the new `max` is taken first, and the new
      `min` is then computed against that already-updated `max`. */
  function Insert(box: AABB, thing: Pixel16): (r: AABB)
    ensures thing.x <= r.max.x && box.max.x <= r.max.x
    ensures thing.y <= r.max.y && box.max.y <= r.max.y
    ensures r.max.x == thing.x || r.max.x == box.max.x
    ensures r.max.y == thing.y || r.max.y == box.max.y
    ensures r.min == thing
    ensures Ordered(r) && ContainsPixel(r, thing)
  {
    var max := Pixel16(MaxU16(thing.x, box.max.x), MaxU16(thing.y, box.max.y));
    var min := Pixel16(MinU16(thing.x, max.x), MinU16(thing.y, max.y));
    AABB(min, max)
  }

  /** Inserting a pixel strictly inside a box moves `min` up to that pixel:
      the box shrinks, although the doc comment promises it only extends. */
  lemma InsertShrinksBox()
    ensures var box := AABB(Pixel16(0, 0), Pixel16(10, 10));
            var r := Insert(box, Pixel16(5, 5));
            ContainsPixel(box, Pixel16(5, 5)) && r.min == Pixel16(5, 5) &&
            !ContainsBox(r, box)
  {
  }

  /** The evidently intended `insert`: both corners computed from the old box. */
  function InsertIntended(box: AABB, thing: Pixel16): (r: AABB)
    ensures ContainsPixel(r, thing)
    ensures Ordered(box) ==> ContainsBox(r, box) && Ordered(r)
  {
    AABB(Pixel16(MinU16(thing.x, box.min.x), MinU16(thing.y, box.min.y)),
         Pixel16(MaxU16(thing.x, box.max.x), MaxU16(thing.y, box.max.y)))
  }

  /** The intended `insert` yields the smallest box holding the old box and
      the pixel, and inserting a pixel already inside changes nothing. */
  lemma InsertIntendedIsLeastExtension(box: AABB, thing: Pixel16, other: AABB)
    requires ContainsBox(other, box) && ContainsPixel(other, thing)
    ensures ContainsBox(other, InsertIntended(box, thing))
    ensures ContainsPixel(box, thing) ==> InsertIntended(box, thing) == box
  {
  }

  // ---------------------------------------------------------------------------
  // fit_in_aabb

  /** The four extrema accumulators of the first loop of `fit_in_aabb`. */
  datatype Extrema = Extrema(minX: real, maxX: real, minY: real, maxY: real)

  /** The accumulators after scanning `data` from left to right, starting from
      0.0 (not from the first point), so that the origin is always included. */
  function ScanExtrema(data: seq<Coord2D>): (e: Extrema)
    ensures e.minX <= 0.0 <= e.maxX && e.minY <= 0.0 <= e.maxY
    ensures forall i :: 0 <= i < |data| ==>
              e.minX <= data[i].x <= e.maxX && e.minY <= data[i].y <= e.maxY
    ensures e.minX == 0.0 || exists i :: 0 <= i < |data| && data[i].x == e.minX
    ensures e.maxX == 0.0 || exists i :: 0 <= i < |data| && data[i].x == e.maxX
    ensures e.minY == 0.0 || exists i :: 0 <= i < |data| && data[i].y == e.minY
    ensures e.maxY == 0.0 || exists i :: 0 <= i < |data| && data[i].y == e.maxY
  {
    if |data| == 0 then Extrema(0.0, 0.0, 0.0, 0.0)
    else
      var e := ScanExtrema(data[..|data| - 1]);
      var pos := data[|data| - 1];
      assert forall i :: 0 <= i < |data| - 1 ==> data[..|data| - 1][i] == data[i];
      Extrema(MinF(e.minX, pos.x), MaxF(e.maxX, pos.x), MinF(e.minY, pos.y), MaxF(e.maxY, pos.y))
  }

  /** Why `fit_in_aabb` panics. */
  datatype FitError =
    | SubtractionOverflow  // `max - min` on `u16` with `min > max`
    | AssertionFailed      // one of the eight range asserts

  /** A scale factor as `f32` computes it: a real quotient, `+inf` (a positive
      box span over a zero data extent) or NaN (`0.0 / 0.0`). Dividing by
      zero does not panic on floats. */
  datatype Factor = Exact(k: real) | PlusInf | NotNumber

  /** Division of a non-negative span by a positive one. */
  lemma DivideSpan(a: real, b: real)
    requires 0.0 <= a && 0.0 < b
    ensures 0.0 <= a / b && (a / b) * b == a
  {
  }

  /** `a / b` in `f32`, for a box span `a` and a data extent `b`, both
      non-negative. */
  function Divide(a: real, b: real): (f: Factor)
    requires 0.0 <= a && 0.0 <= b
    ensures f.Exact? <==> 0.0 < b
    ensures f.Exact? ==> 0.0 <= f.k && f.k * b == a
    ensures f.PlusInf? <==> b == 0.0 && 0.0 < a
    ensures f.NotNumber? <==> b == 0.0 && a == 0.0
  {
    if b > 0.0 then DivideSpan(a, b); Exact(a / b)
    else if a > 0.0 then PlusInf
    else NotNumber
  }

  /** `a < b` on `f32` factors: every comparison with NaN is false. */
  predicate FactorLess(a: Factor, b: Factor)
  {
    match (a, b)
    case (Exact(x), Exact(y)) => x < y
    case (Exact(_), PlusInf) => true
    case _ => false
  }

  /** `minf` on factors (`if a < b { a } else { b }`): the smaller of two
      numbers, a number before `+inf`, and otherwise `b` - so a NaN in `a`
      is skipped but a NaN in `b` is taken. */
  function MinFactor(a: Factor, b: Factor): (r: Factor)
    ensures a.Exact? && b.Exact? ==> r == Exact(MinF(a.k, b.k))
    ensures a.Exact? && b.PlusInf? ==> r == a
    ensures !a.Exact? ==> r == b
    ensures b.NotNumber? ==> r == b
  {
    if FactorLess(a, b) then a else b
  }

  /** The scale factors and offsets `fit_in_aabb` computes before its second loop. */
  datatype Transform = Transform(xFactor: Factor, yFactor: Factor, factor: Factor,
                                 xOffset: real, yOffset: real)

  /** Each axis's factor is the box span over the data extent; `minf` of the
      two is used, so that both axes fit. The offsets move the data minimum
      onto the box minimum. */
  function Factors(boxMin: Pixel16, dx: real, dy: real, e: Extrema): (t: Transform)
    requires 0.0 <= dx && 0.0 <= dy
    requires e.minX <= e.maxX && e.minY <= e.maxY
    ensures t.xOffset == boxMin.x as real - e.minX && t.yOffset == boxMin.y as real - e.minY
  {
    var xFactor := Divide(dx, e.maxX - e.minX);
    var yFactor := Divide(dy, e.maxY - e.minY);
    Transform(xFactor, yFactor, MinFactor(xFactor, yFactor), boxMin.x as real - e.minX, boxMin.y as real - e.minY)
  }

  /** Which factor `minf` leaves: with extent on both axes, the smaller of the
      two finite ones; with extent on one axis only, the other axis's factor
      is `+inf` and loses, unless the box is flat on the y axis, whose NaN
      (`0.0 / 0.0`) `minf` returns from its second place; with no extent at
      all, no finite factor. */
  lemma FactorChoice(boxMin: Pixel16, dx: real, dy: real, e: Extrema)
    requires 0.0 <= dx && 0.0 <= dy
    requires e.minX <= e.maxX && e.minY <= e.maxY
    ensures var t := Factors(boxMin, dx, dy, e);
            e.minX < e.maxX && e.minY < e.maxY ==>
              && t.xFactor.Exact? && t.yFactor.Exact? && t.factor.Exact?
              && t.xFactor.k * (e.maxX - e.minX) == dx && t.yFactor.k * (e.maxY - e.minY) == dy
              && t.factor.k <= t.xFactor.k && t.factor.k <= t.yFactor.k
              && (t.factor.k == t.xFactor.k || t.factor.k == t.yFactor.k)
              && 0.0 <= t.factor.k
    ensures var t := Factors(boxMin, dx, dy, e);
            e.minX == e.maxX && e.minY < e.maxY ==>
              t.factor.Exact? && t.factor.k * (e.maxY - e.minY) == dy
    ensures var t := Factors(boxMin, dx, dy, e);
            e.minX < e.maxX && e.minY == e.maxY ==>
              (0.0 < dy ==> t.factor.Exact? && t.factor.k * (e.maxX - e.minX) == dx) &&
              (dy == 0.0 ==> t.factor.NotNumber?)
    ensures var t := Factors(boxMin, dx, dy, e);
            e.minX == e.maxX && e.minY == e.maxY ==> !t.factor.Exact?
  {
  }

  /** Everything `fit_in_aabb` computes before its second loop; only the
      `u16` subtraction can fail. The offsets never move a point below the
      box minimum, and move it exactly onto it on an axis whose data are
      non-negative. */
  function ComputeTransform(box: AABB, data: seq<Coord2D>): (r: Result<Transform, FitError>)
    ensures r.Err? <==> !Ordered(box)
    ensures r.Err? ==> r.error == SubtractionOverflow
    ensures r.Ok? ==> r.value.xOffset >= box.min.x as real && r.value.yOffset >= box.min.y as real
    ensures r.Ok? ==> (r.value.xOffset == box.min.x as real <==> forall i :: 0 <= i < |data| ==> 0.0 <= data[i].x)
    ensures r.Ok? ==> (r.value.yOffset == box.min.y as real <==> forall i :: 0 <= i < |data| ==> 0.0 <= data[i].y)
  {
    if !Ordered(box) then Err(SubtractionOverflow)
    else Ok(Factors(box.min, (box.max.x - box.min.x) as real, (box.max.y - box.min.y) as real,
                    ScanExtrema(data)))
  }

  /** `maxf(pos * (factor - EPS), 0.0)` for a finite factor: the coordinate
      scaled by slightly less than the factor, clamped at zero. */
  function Scaled(pos: real, k: real): (r: real)
    ensures 0.0 <= r
    ensures pos * (k - EPS) >= 0.0 ==> r == pos * (k - EPS)
    ensures pos * (k - EPS) <= 0.0 ==> r == 0.0
  {
    MaxF(pos * (k - EPS), 0.0)
  }

  /** `maxf(pos * (factor - EPS), 0.0)` for one axis and any factor; `None`
      stands for `+inf`. Under an infinite factor a positive coordinate
      becomes `+inf`, a negative one `-inf` and zero NaN; `maxf` turns both of
      the latter into 0, as it does the NaN of a NaN factor. */
  function ScaleAxis(pos: real, f: Factor): (r: Option<real>)
    ensures r.None? <==> f.PlusInf? && 0.0 < pos
    ensures r.Some? ==> 0.0 <= r.value
    ensures f.Exact? ==> r == Some(Scaled(pos, f.k))
    ensures f.NotNumber? ==> r == Some(0.0)
  {
    if f.Exact? then Some(Scaled(pos, f.k))
    else if f.PlusInf? && pos > 0.0 then None
    else Some(0.0)
  }

  /** Scale, clamp at zero, then move one point (the body of the second
      loop); `None` is a point with an infinite coordinate. */
  function ApplyTransform(t: Transform, pos: Coord2D): (p: Option<Coord2D>)
    ensures p.None? <==> t.factor.PlusInf? && (0.0 < pos.x || 0.0 < pos.y)
    ensures p.Some? ==> p.value.x >= t.xOffset + EPS && p.value.y >= t.yOffset + EPS
    ensures t.factor.Exact? ==>
              p == Some(Coord2D(Scaled(pos.x, t.factor.k) + t.xOffset + EPS,
                                Scaled(pos.y, t.factor.k) + t.yOffset + EPS))
    ensures t.factor.NotNumber? ==> p == Some(Coord2D(t.xOffset + EPS, t.yOffset + EPS))
  {
    match (ScaleAxis(pos.x, t.factor), ScaleAxis(pos.y, t.factor))
    case (Some(x), Some(y)) => Some(Coord2D(x + t.xOffset + EPS, y + t.yOffset + EPS))
    case _ => None
  }

  /** The eight asserts of the second loop: on the 480x272 screen and in the box. */
  predicate PointFits(box: AABB, p: Coord2D)
  {
    && p.x <= SCREEN_WIDTH && p.y <= SCREEN_HEIGHT && p.x >= 0.0 && p.y >= 0.0
    && p.x <= box.max.x as real && p.y <= box.max.y as real
    && p.x >= box.min.x as real && p.y >= box.min.y as real
  }

  /** The image passes the asserts; an infinite coordinate fails the first
      screen bound. */
  predicate ImageFits(box: AABB, img: Option<Coord2D>)
  {
    img.Some? && PointFits(box, img.value)
  }

  /** The second loop: transform every point in order, panicking at the first
      point that fails an assert. */
  function ScaleAll(box: AABB, t: Transform, data: seq<Coord2D>): (r: Result<seq<Coord2D>, FitError>)
    ensures r.Ok? <==> forall i :: 0 <= i < |data| ==> ImageFits(box, ApplyTransform(t, data[i]))
    ensures r.Err? ==> r.error == AssertionFailed
    ensures r.Ok? ==> |r.value| == |data|
    ensures r.Ok? ==> forall i :: 0 <= i < |data| ==> Some(r.value[i]) == ApplyTransform(t, data[i])
  {
    if |data| == 0 then Ok([])
    else
      var p := ApplyTransform(t, data[0]);
      if !ImageFits(box, p) then Err(AssertionFailed)
      else match ScaleAll(box, t, data[1..])
        case Err(e) => Err(e)
        case Ok(rest) => Ok([p.value] + rest)
  }

  /** `AABB::fit_in_aabb`: map `data` into the box, point by point, in order. */
  function FitInAabb(box: AABB, data: seq<Coord2D>): (r: Result<seq<Coord2D>, FitError>)
    ensures r == Err(SubtractionOverflow) <==> !Ordered(box)
    ensures r.Ok? <==>
              Ordered(box) &&
              forall i :: 0 <= i < |data| ==>
                ImageFits(box, ApplyTransform(ComputeTransform(box, data).value, data[i]))
    ensures Ordered(box) && |data| == 0 ==> r == Ok([])
    ensures r.Ok? ==>
              && |r.value| == |data|
              && (forall i :: 0 <= i < |data| ==>
                    Some(r.value[i]) == ApplyTransform(ComputeTransform(box, data).value, data[i]))
              && (forall i :: 0 <= i < |data| ==>
                    box.min.x as real + EPS <= r.value[i].x <= box.max.x as real &&
                    box.min.y as real + EPS <= r.value[i].y <= box.max.y as real)
  {
    match ComputeTransform(box, data)
    case Err(e) => Err(e)
    case Ok(t) => ScaleAll(box, t, data)
  }
}

=== FILE: casts.dfy ===
/** Rust's numeric `as` casts from a float (idealised here as `real`) to an
    integer type: the value is truncated toward zero and then saturated to the
    range of the target type. */
module Casts {

  type u16 = n: int | 0 <= n <= 0xFFFF
  type u32 = n: int | 0 <= n <= 0xFFFF_FFFF
  type i32 = n: int | -0x8000_0000 <= n <= 0x7FFF_FFFF

  /** Truncation toward zero (Dafny's `Floor` rounds toward minus infinity). */
  function Trunc(r: real): (n: int)
    ensures 0.0 <= r ==> n as real <= r < n as real + 1.0
    ensures r <= 0.0 ==> n as real - 1.0 < r <= n as real
  {
    if r >= 0.0 then r.Floor else -((-r).Floor)
  }

  function Clamp(n: int, lo: int, hi: int): (c: int)
    requires lo <= hi
    ensures lo <= c <= hi
    ensures lo <= n <= hi ==> c == n
    ensures n < lo ==> c == lo
    ensures hi < n ==> c == hi
  {
    if n < lo then lo else if hi < n then hi else n
  }

  /** `r as u16` */
  function CastU16(r: real): (n: u16)
    ensures r <= 0.0 ==> n == 0
    ensures 65535.0 <= r ==> n == 65535
    ensures 0.0 <= r < 65536.0 ==> n as real <= r < n as real + 1.0
  {
    Clamp(Trunc(r), 0, 0xFFFF)
  }

  /** `r as i32` */
  function CastI32(r: real): (n: i32)
    ensures -2147483648.0 <= r < 2147483648.0 ==> n == Trunc(r)
    ensures r < -2147483648.0 ==> n == -0x8000_0000
    ensures 2147483648.0 <= r ==> n == 0x7FFF_FFFF
  {
    Clamp(Trunc(r), -0x8000_0000, 0x7FFF_FFFF)
  }

  /** `r as u32` */
  function CastU32(r: real): (n: u32)
    ensures r <= 0.0 ==> n == 0
    ensures 0.0 <= r < 4294967296.0 ==> n as real <= r < n as real + 1.0
  {
    Clamp(Trunc(r), 0, 0xFFFF_FFFF)
  }

  /** A saturating cast never reverses the order of two values. */
  lemma CastU16Monotone(a: real, b: real)
    requires a <= b
    ensures CastU16(a) <= CastU16(b)
  {
    if 0.0 <= a {
      assert a.Floor <= b.Floor;
    }
  }
}

=== FILE: coordinates.dfy ===
/** The two point types of the renderer and the arithmetic on continuous points. */
module Coordinates {
  import opened Casts

  /** A concrete pixel on the screen; both coordinates are unsigned 16-bit. */
  datatype Pixel16 = Pixel16(x: u16, y: u16)

  /** A point of an abstract coordinate system (`f32` in the original). */
  datatype Coord2D = Coord2D(x: real, y: real)

  /** A pixel can never have a negative or a more-than-16-bit coordinate. */
  lemma PixelInRange(p: Pixel16)
    ensures 0 <= p.x <= 65535 && 0 <= p.y <= 65535
  {
  }

  function Add(a: Coord2D, b: Coord2D): Coord2D
  {
    Coord2D(a.x + b.x, a.y + b.y)
  }

  function Sub(a: Coord2D, b: Coord2D): Coord2D
  {
    Coord2D(a.x - b.x, a.y - b.y)
  }

  function Mul(a: Coord2D, k: real): Coord2D
  {
    Coord2D(a.x * k, a.y * k)
  }

  /** `self += other`: the new value of `self`. */
  function AddAssign(self: Coord2D, other: Coord2D): (r: Coord2D)
    ensures r == Add(self, other)
    ensures Sub(r, other) == self
  {
    Coord2D(self.x + other.x, self.y + other.y)
  }

  /** `self -= other`: the new value of `self`. */
  function SubAssign(self: Coord2D, other: Coord2D): (r: Coord2D)
    ensures r == Sub(self, other)
    ensures Add(r, other) == self
  {
    Coord2D(self.x - other.x, self.y - other.y)
  }

  /** Addition acts on each axis separately: it is commutative, has the
      origin as its unit, and is undone by subtraction. */
  lemma AddComponentwise(a: Coord2D, b: Coord2D)
    ensures Add(a, b) == Add(b, a)
    ensures Add(a, Coord2D(0.0, 0.0)) == a
    ensures Sub(Add(a, b), b) == a
    ensures Add(a, b).x == a.x + b.x && Add(a, b).y == a.y + b.y
  {
  }

  /** Subtraction acts on each axis separately and is undone by addition. */
  lemma SubComponentwise(a: Coord2D, b: Coord2D)
    ensures Add(Sub(a, b), b) == a
    ensures Sub(a, a) == Coord2D(0.0, 0.0)
    ensures Sub(a, b).x == a.x - b.x && Sub(a, b).y == a.y - b.y
  {
  }

  /** Scaling multiplies both axes by the same factor: it distributes over
      addition, composes multiplicatively, and scaling by 1 changes nothing. */
  lemma MulUniform(a: Coord2D, b: Coord2D, k: real, m: real)
    ensures Mul(Add(a, b), k) == Add(Mul(a, k), Mul(b, k))
    ensures Mul(Mul(a, k), m) == Mul(a, k * m)
    ensures Mul(a, 1.0) == a
    ensures Mul(a, k).x == a.x * k && Mul(a, k).y == a.y * k
  {
  }
}

=== FILE: fit_properties.dfy ===
/** What `fit_in_aabb` guarantees, and when its asserts can fail. */
module FitProperties {
  import opened Casts
  import opened Coordinates
  import opened Results
  import opened Aabb

  lemma ScaleMonotone(c: real, a: real, b: real)
    requires 0.0 <= c && a <= b
    ensures c * a <= c * b
  {
  }

  /** Along one axis, a point `p` of the data span `[0, ext]` scaled by
      `factor - EPS`, clamped at zero and shifted by EPS stays within the box
      span `dx`, provided both spans are at least 1. */
  lemma AxisStaysInSpan(p: real, ext: real, dx: real, candidate: real, factor: real)
    requires 0.0 <= p <= ext && 1.0 <= ext && 1.0 <= dx
    requires candidate * ext == dx && 0.0 <= factor <= candidate
    ensures Scaled(p, factor) + EPS <= dx
  {
    var scaled := p * (factor - EPS);
    if scaled > 0.0 {
      var pf := p * factor;
      assert scaled == pf - p * EPS;
      ScaleMonotone(p, factor, candidate);
      if p >= 1.0 {
        ScaleMonotone(candidate, p, ext);
        assert candidate * p <= dx;
        assert pf <= dx;
        assert EPS <= p * EPS;
      } else {
        assert candidate <= dx by {
          ScaleMonotone(candidate, 1.0, ext);
        }
        ScaleMonotone(p, candidate, dx);
        assert p * factor <= p * candidate;
        assert p * candidate <= p * dx;
        assert p * factor <= p * dx;
        MarginFits(p, dx);
      }
    }
  }

  /** Below 1, the EPS added back outweighs what EPS took off the factor by
      less than the box span gives in return. */
  lemma MarginFits(p: real, dx: real)
    requires 0.0 <= p <= 1.0 && 1.0 <= dx
    ensures EPS - p * EPS <= dx - p * dx
  {
    var q := 1.0 - p;
    assert q * (dx - EPS) >= 0.0;
    assert q * (dx - EPS) == dx - p * dx - EPS + p * EPS;
  }

  lemma PointFitsInBox(box: AABB, t: Transform, e: Extrema, pos: Coord2D)
    requires box.min.x + 1 <= box.max.x && box.min.y + 1 <= box.max.y
    requires box.max.x as real <= SCREEN_WIDTH && box.max.y as real <= SCREEN_HEIGHT
    requires 1.0 <= e.maxX && 1.0 <= e.maxY
    requires 0.0 <= pos.x <= e.maxX && 0.0 <= pos.y <= e.maxY
    requires t.xFactor.Exact? && t.yFactor.Exact? && t.factor.Exact?
    requires t.xFactor.k * e.maxX == (box.max.x - box.min.x) as real
    requires t.yFactor.k * e.maxY == (box.max.y - box.min.y) as real
    requires 0.0 <= t.factor.k <= t.xFactor.k && t.factor.k <= t.yFactor.k
    requires t.xOffset == box.min.x as real && t.yOffset == box.min.y as real
    ensures ImageFits(box, ApplyTransform(t, pos))
  {
    AxisStaysInSpan(pos.x, e.maxX, (box.max.x - box.min.x) as real, t.xFactor.k, t.factor.k);
    AxisStaysInSpan(pos.y, e.maxY, (box.max.y - box.min.y) as real, t.yFactor.k, t.factor.k);
  }

  /** The image of a point whose scaled axes are both finite. */
  lemma ImageOf(t: Transform, pos: Coord2D, x: real, y: real)
    requires ScaleAxis(pos.x, t.factor) == Some(x) && ScaleAxis(pos.y, t.factor) == Some(y)
    ensures ApplyTransform(t, pos) == Some(Coord2D(x + t.xOffset + EPS, y + t.yOffset + EPS))
  {
  }

  /** The asserted bounds of `fit_in_aabb` hold when the data are non-negative
      and reach at least 1 on both axes, and the box spans at least one pixel
      on both axes and lies on the 480x272 screen. The code checks none of
      this; it panics instead. */
  lemma FitSucceeds(box: AABB, data: seq<Coord2D>)
    requires box.min.x + 1 <= box.max.x && box.min.y + 1 <= box.max.y
    requires box.max.x as real <= SCREEN_WIDTH && box.max.y as real <= SCREEN_HEIGHT
    requires forall i :: 0 <= i < |data| ==> 0.0 <= data[i].x && 0.0 <= data[i].y
    requires exists i :: 0 <= i < |data| && 1.0 <= data[i].x
    requires exists i :: 0 <= i < |data| && 1.0 <= data[i].y
    ensures FitInAabb(box, data).Ok?
  {
    NonNegativeExtrema(data);
    var e := ScanExtrema(data);
    var t := NonNegativeTransform(box, e);
    assert ComputeTransform(box, data) == Ok(t);
    forall i | 0 <= i < |data|
      ensures ImageFits(box, ApplyTransform(t, data[i]))
    {
      PointFitsInBox(box, t, e, data[i]);
    }
  }

  /** The transform for data whose minima are 0: each factor maps the data
      maximum onto the box span, and the offset is the box minimum. */
  lemma NonNegativeTransform(box: AABB, e: Extrema) returns (t: Transform)
    requires box.min.x + 1 <= box.max.x && box.min.y + 1 <= box.max.y
    requires e.minX == 0.0 && e.minY == 0.0 && 1.0 <= e.maxX && 1.0 <= e.maxY
    ensures t == Factors(box.min, (box.max.x - box.min.x) as real, (box.max.y - box.min.y) as real, e)
    ensures t.xFactor.Exact? && t.yFactor.Exact? && t.factor.Exact?
    ensures t.xFactor.k * e.maxX == (box.max.x - box.min.x) as real
    ensures t.yFactor.k * e.maxY == (box.max.y - box.min.y) as real
    ensures 0.0 <= t.factor.k <= t.xFactor.k && t.factor.k <= t.yFactor.k
    ensures t.xOffset == box.min.x as real && t.yOffset == box.min.y as real
  {
    var dx := (box.max.x - box.min.x) as real;
    var dy := (box.max.y - box.min.y) as real;
    t := Factors(box.min, dx, dy, e);
    FactorChoice(box.min, dx, dy, e);
    SpanFromZero(t.xFactor.k, e.maxX, e.minX);
    SpanFromZero(t.yFactor.k, e.maxY, e.minY);
  }

  lemma SpanFromZero(f: real, hi: real, lo: real)
    requires lo == 0.0
    ensures f * (hi - lo) == f * hi
  {
  }

  /** For non-negative data reaching 1 on both axes, the accumulators'
      minima stay at their starting value 0 and the maxima reach 1. */
  lemma NonNegativeExtrema(data: seq<Coord2D>)
    requires forall i :: 0 <= i < |data| ==> 0.0 <= data[i].x && 0.0 <= data[i].y
    requires exists i :: 0 <= i < |data| && 1.0 <= data[i].x
    requires exists i :: 0 <= i < |data| && 1.0 <= data[i].y
    ensures ScanExtrema(data).minX == 0.0 && ScanExtrema(data).minY == 0.0
    ensures 1.0 <= ScanExtrema(data).maxX && 1.0 <= ScanExtrema(data).maxY
  {
  }

  /** Negative data can break the upper bound: the offset `min - min_x` is not
      scaled by the factor, so a far negative minimum pushes the other points
      beyond the box. */
  lemma NegativeDataFailsAssert()
    ensures FitInAabb(AABB(Pixel16(0, 0), Pixel16(10, 10)),
                      [Coord2D(-100.0, -100.0), Coord2D(1.0, 1.0)]) == Err(AssertionFailed)
  {
    var box := AABB(Pixel16(0, 0), Pixel16(10, 10));
    var data := [Coord2D(-100.0, -100.0), Coord2D(1.0, 1.0)];
    var e := ScanExtrema(data);
    assert e.minX == -100.0 && e.maxX == 1.0;
    var t := ComputeTransform(box, data).value;
    assert t.xOffset == 100.0;
    assert !ImageFits(box, ApplyTransform(t, data[0]));
  }

  /** ... but need not: a small negative minimum only shifts the images by
      half a pixel, and they stay inside a large enough box. */
  lemma NegativeDataCanFit()
    ensures FitInAabb(AABB(Pixel16(0, 0), Pixel16(90, 90)),
                      [Coord2D(-0.5, -0.5), Coord2D(1.0, 1.0)])
            == Ok([Coord2D(0.5001, 0.5001), Coord2D(60.5, 60.5)])
  {
    var box := AABB(Pixel16(0, 0), Pixel16(90, 90));
    var data := [Coord2D(-0.5, -0.5), Coord2D(1.0, 1.0)];
    var e := ScanExtrema(data);
    assert e == Extrema(-0.5, 1.0, -0.5, 1.0);
    var t := Transform(Exact(60.0), Exact(60.0), Exact(60.0), 0.5, 0.5);
    assert Factors(box.min, 90.0, 90.0, e) == t;
    ImageOf(t, data[0], 0.0, 0.0);
    ImageOf(t, data[1], 59.9999, 59.9999);
    FitYields(box, data, t, [Coord2D(0.5001, 0.5001), Coord2D(60.5, 60.5)]);
  }

  /** Data spanning less than 1 break the upper bound too: the EPS added after
      scaling is not compensated by the EPS taken off the factor. */
  lemma SubUnitDataFailsAssert()
    ensures FitInAabb(AABB(Pixel16(0, 0), Pixel16(1, 1)),
                      [Coord2D(0.0, 0.0), Coord2D(0.5, 0.5)]) == Err(AssertionFailed)
  {
    var box := AABB(Pixel16(0, 0), Pixel16(1, 1));
    var data := [Coord2D(0.0, 0.0), Coord2D(0.5, 0.5)];
    var e := ScanExtrema(data);
    assert e.minX == 0.0 && e.maxX == 0.5 && e.minY == 0.0 && e.maxY == 0.5;
    var t := ComputeTransform(box, data).value;
    assert t.xFactor == Exact(2.0) && t.factor == Exact(2.0);
    assert ApplyTransform(t, data[1]).value.x == 1.00005;
  }

  /** Data without extent on one axis do not panic: that axis's factor is
      `+inf`, `minf` picks the other one, and the flat axis maps to its box
      minimum plus EPS. */
  lemma FlatDataUsesOtherAxis()
    ensures FitInAabb(AABB(Pixel16(10, 10), Pixel16(100, 100)),
                      [Coord2D(0.0, 3.0), Coord2D(0.0, 5.0)])
            == Ok([Coord2D(10.0001, 63.9998), Coord2D(10.0001, 99.9996)])
  {
    var box := AABB(Pixel16(10, 10), Pixel16(100, 100));
    var data := [Coord2D(0.0, 3.0), Coord2D(0.0, 5.0)];
    var t := FlatDataTransform();
    FlatDataImages(t);
    FitYields(box, data, t, [Coord2D(10.0001, 63.9998), Coord2D(10.0001, 99.9996)]);
  }

  /** The x extent is 0, so the x factor is `+inf` and `minf` yields the y
      factor 90 / 5. */
  lemma FlatDataTransform() returns (t: Transform)
    ensures t == Transform(PlusInf, Exact(18.0), Exact(18.0), 10.0, 10.0)
    ensures ComputeTransform(AABB(Pixel16(10, 10), Pixel16(100, 100)),
                             [Coord2D(0.0, 3.0), Coord2D(0.0, 5.0)]) == Ok(t)
  {
    var data := [Coord2D(0.0, 3.0), Coord2D(0.0, 5.0)];
    assert ScanExtrema(data) == Extrema(0.0, 0.0, 0.0, 5.0);
    assert Divide(90.0, 0.0) == PlusInf && Divide(90.0, 5.0) == Exact(18.0);
    assert MinFactor(PlusInf, Exact(18.0)) == Exact(18.0);
    TransformOf(AABB(Pixel16(10, 10), Pixel16(100, 100)), data, Extrema(0.0, 0.0, 0.0, 5.0),
                PlusInf, Exact(18.0));
    t := Transform(PlusInf, Exact(18.0), Exact(18.0), 10.0, 10.0);
  }

  /** Where that transform sends the two points. */
  lemma FlatDataImages(t: Transform)
    requires t == Transform(PlusInf, Exact(18.0), Exact(18.0), 10.0, 10.0)
    ensures ApplyTransform(t, Coord2D(0.0, 3.0)) == Some(Coord2D(10.0001, 63.9998))
    ensures ApplyTransform(t, Coord2D(0.0, 5.0)) == Some(Coord2D(10.0001, 99.9996))
  {
    ImageOf(t, Coord2D(0.0, 3.0), 0.0, 53.9997);
    ImageOf(t, Coord2D(0.0, 5.0), 0.0, 89.9995);
  }

  /** The transform of an ordered box once the extrema and both quotients are
      known. */
  lemma TransformOf(box: AABB, data: seq<Coord2D>, e: Extrema, xf: Factor, yf: Factor)
    requires Ordered(box) && ScanExtrema(data) == e
    requires Divide((box.max.x - box.min.x) as real, e.maxX - e.minX) == xf
    requires Divide((box.max.y - box.min.y) as real, e.maxY - e.minY) == yf
    ensures ComputeTransform(box, data) ==
              Ok(Transform(xf, yf, MinFactor(xf, yf), box.min.x as real - e.minX, box.min.y as real - e.minY))
  {
  }

  /** Data at the origin only: both factors are `+inf`, and `0 * inf` is NaN,
      which `maxf` clamps to 0, so the point lands on the box minimum plus EPS. */
  lemma OriginOnlyFits()
    ensures FitInAabb(AABB(Pixel16(10, 10), Pixel16(100, 100)), [Coord2D(0.0, 0.0)])
            == Ok([Coord2D(10.0001, 10.0001)])
  {
    var t := OriginOnlyTransform();
    ImageOf(t, Coord2D(0.0, 0.0), 0.0, 0.0);
    FitYields(AABB(Pixel16(10, 10), Pixel16(100, 100)), [Coord2D(0.0, 0.0)], t,
              [Coord2D(10.0001, 10.0001)]);
  }

  /** No extent on either axis: both quotients are `+inf`, and so is their `minf`. */
  lemma OriginOnlyTransform() returns (t: Transform)
    ensures t == Transform(PlusInf, PlusInf, PlusInf, 10.0, 10.0)
    ensures ComputeTransform(AABB(Pixel16(10, 10), Pixel16(100, 100)), [Coord2D(0.0, 0.0)]) == Ok(t)
  {
    var data := [Coord2D(0.0, 0.0)];
    assert ScanExtrema(data) == Extrema(0.0, 0.0, 0.0, 0.0);
    assert Divide(90.0, 0.0) == PlusInf && MinFactor(PlusInf, PlusInf) == PlusInf;
    TransformOf(AABB(Pixel16(10, 10), Pixel16(100, 100)), data, Extrema(0.0, 0.0, 0.0, 0.0),
                PlusInf, PlusInf);
    t := Transform(PlusInf, PlusInf, PlusInf, 10.0, 10.0);
  }

  /** A box without width or height fails the asserts for any non-empty data:
      every image lies at least EPS above the box minimum, or is infinite. */
  lemma FlatBoxFails(box: AABB, data: seq<Coord2D>)
    requires Ordered(box) && (box.min.x == box.max.x || box.min.y == box.max.y)
    requires |data| > 0
    ensures FitInAabb(box, data) == Err(AssertionFailed)
  {
    var t := ComputeTransform(box, data).value;
    var img := ApplyTransform(t, data[0]);
    assert t.xOffset >= box.min.x as real && t.yOffset >= box.min.y as real;
    assert !ImageFits(box, img);
  }

  /** A box with `min > max` underflows the `u16` subtraction. */
  lemma InvertedBoxUnderflows(data: seq<Coord2D>)
    ensures FitInAabb(AABB(Pixel16(100, 10), Pixel16(10, 100)), data) == Err(SubtractionOverflow)
  {
  }

  /** The unit square fitted into (10,10)-(100,100): factor 90, every assert
      passes, and the corners land EPS inside the lower box edges and exactly
      on the upper ones. */
  lemma UnitSquareFits()
    ensures FitInAabb(AABB(Pixel16(10, 10), Pixel16(100, 100)),
                      [Coord2D(0.0, 0.0), Coord2D(0.0, 1.0), Coord2D(1.0, 1.0), Coord2D(1.0, 0.0)])
            == Ok([Coord2D(10.0001, 10.0001), Coord2D(10.0001, 100.0),
                   Coord2D(100.0, 100.0), Coord2D(100.0, 10.0001)])
  {
    var box := AABB(Pixel16(10, 10), Pixel16(100, 100));
    var data := [Coord2D(0.0, 0.0), Coord2D(0.0, 1.0), Coord2D(1.0, 1.0), Coord2D(1.0, 0.0)];
    var expected := [Coord2D(10.0001, 10.0001), Coord2D(10.0001, 100.0),
                     Coord2D(100.0, 100.0), Coord2D(100.0, 10.0001)];
    var t := UnitSquareTransform();
    UnitSquareImages(t);
    assert forall i :: 0 <= i < 4 ==> ApplyTransform(t, data[i]) == Some(expected[i]) by {
      assert data[0] == Coord2D(0.0, 0.0) && data[1] == Coord2D(0.0, 1.0);
      assert data[2] == Coord2D(1.0, 1.0) && data[3] == Coord2D(1.0, 0.0);
    }
    assert forall i :: 0 <= i < 4 ==> PointFits(box, expected[i]);
    FitYields(box, data, t, expected);
  }

  /** When the transform is known and every image fits, the fit succeeds with
      exactly those images, in order. */
  lemma FitYields(box: AABB, data: seq<Coord2D>, t: Transform, expected: seq<Coord2D>)
    requires ComputeTransform(box, data) == Ok(t) && |expected| == |data|
    requires forall i :: 0 <= i < |data| ==>
               ApplyTransform(t, data[i]) == Some(expected[i]) && PointFits(box, expected[i])
    ensures FitInAabb(box, data) == Ok(expected)
  {
    var r := FitInAabb(box, data);
    assert r.Ok?;
    assert r.value == expected;
  }

  /** The unit square spans 1 on both axes from the origin, so both factors
      are the box span 90 and the offsets the box minimum 10. */
  lemma UnitSquareTransform() returns (t: Transform)
    ensures t == Transform(Exact(90.0), Exact(90.0), Exact(90.0), 10.0, 10.0)
    ensures ComputeTransform(AABB(Pixel16(10, 10), Pixel16(100, 100)),
              [Coord2D(0.0, 0.0), Coord2D(0.0, 1.0), Coord2D(1.0, 1.0), Coord2D(1.0, 0.0)]) == Ok(t)
  {
    var box := AABB(Pixel16(10, 10), Pixel16(100, 100));
    var data := [Coord2D(0.0, 0.0), Coord2D(0.0, 1.0), Coord2D(1.0, 1.0), Coord2D(1.0, 0.0)];
    var e := ScanExtrema(data);
    assert e == Extrema(0.0, 1.0, 0.0, 1.0);
    t := Transform(Exact(90.0), Exact(90.0), Exact(90.0), 10.0, 10.0);
    assert Factors(box.min, 90.0, 90.0, e) == t;
  }

  /** Where the transform of the unit square sends each corner. */
  lemma UnitSquareImages(t: Transform)
    requires t == Transform(Exact(90.0), Exact(90.0), Exact(90.0), 10.0, 10.0)
    ensures ApplyTransform(t, Coord2D(0.0, 0.0)) == Some(Coord2D(10.0001, 10.0001))
    ensures ApplyTransform(t, Coord2D(0.0, 1.0)) == Some(Coord2D(10.0001, 100.0))
    ensures ApplyTransform(t, Coord2D(1.0, 1.0)) == Some(Coord2D(100.0, 100.0))
    ensures ApplyTransform(t, Coord2D(1.0, 0.0)) == Some(Coord2D(100.0, 10.0001))
  {
  }
}

=== FILE: renderer.dfy ===
/** `Renderer::draw_lines` and `Renderer::draw_line`: an antialiased line
    stepper whose pixel sink is modelled as the sequence of (x, y, colour)
    writes it receives, in emission order. */
module Renderer {
  import opened Casts
  import opened Coordinates
  import opened Results
  import opened Aabb

  /** The colour `draw_lines` draws every segment with. */
  const LINE_COLOR: u32 := 0xFAFA_FAFA

  /** One call of the pixel sink. */
  datatype Write = Write(x: u16, y: u16, color: u32)

  /** Why drawing panics. */
  datatype Panic =
    | LengthUnderflow    // `data.len() - 1` on an empty vector
    | DecimalOutOfRange  // the assert on the fractional part fails (NaN, or a saturated `as i32`)
    | RangeOverflow      // `max + 1` of the stepped axis overflows `u16`

  /** `dy / dx` in `f32`: a finite quotient, an infinity when only `dx` is
      zero (its sign never matters below), or NaN when both are zero. */
  datatype Slope = Finite(g: real) | Infinite | NotANumber

  /** Everything `draw_line` fixes before its loop: the segment-local clip box,
      the stepping axis, the slope, the minor-axis coordinate the line function
      starts from, and the colour. */
  datatype Plan = Plan(box: AABB, alongX: bool, slope: Slope, base: real, color: u32)

  /** The two endpoints ordered by x; on a tie `p1` comes first. */
  function OrderByX(p1: Coord2D, p2: Coord2D): (lr: (Coord2D, Coord2D))
    ensures lr.0.x <= lr.1.x
    ensures lr == (p1, p2) || lr == (p2, p1)
    ensures p1.x <= p2.x ==> lr == (p1, p2)
  {
    if p1.x == MinF(p1.x, p2.x) then (p1, p2) else (p2, p1)
  }

  /** The two endpoints ordered by y; on a tie `p1` comes first. */
  function OrderByY(p1: Coord2D, p2: Coord2D): (lr: (Coord2D, Coord2D))
    ensures lr.0.y <= lr.1.y
    ensures lr == (p1, p2) || lr == (p2, p1)
    ensures p1.y <= p2.y ==> lr == (p1, p2)
  {
    if p1.y == MinF(p1.y, p2.y) then (p1, p2) else (p2, p1)
  }

  function AbsR(r: real): real { if r < 0.0 then -r else r }

  /** The gradient `dy / dx` between the x-ordered endpoints. */
  function SlopeOf(p1: Coord2D, p2: Coord2D): (s: Slope)
    ensures s.Finite? <==> p1.x != p2.x
    ensures s.NotANumber? <==> p1 == p2
    ensures s.Finite? ==> s.g * (p2.x - p1.x) == p2.y - p1.y
  {
    var (left, right) := OrderByX(p1, p2);
    var dx := right.x - left.x;
    var dy := right.y - left.y;
    if dx != 0.0 then
      assert (dy / dx) * dx == dy;
      Finite(dy / dx)
    else if dy != 0.0 then Infinite
    else NotANumber
  }

  /** `draw_line` steps along x exactly when `-1 <= gradient <= 1`. */
  predicate StepsAlongX(p1: Coord2D, p2: Coord2D)
  {
    var s := SlopeOf(p1, p2);
    s.Finite? && -1.0 <= s.g <= 1.0
  }

  /** The clip box `draw_line` builds from the segment's own endpoints. */
  function SegmentBox(p1: Coord2D, p2: Coord2D): (box: AABB)
    ensures Ordered(box)
    ensures box.min.x <= CastU16(p1.x) <= box.max.x && box.min.x <= CastU16(p2.x) <= box.max.x
    ensures box.min.y <= CastU16(p1.y) <= box.max.y && box.min.y <= CastU16(p2.y) <= box.max.y
    ensures (box.min.x == CastU16(p1.x) || box.min.x == CastU16(p2.x)) &&
            (box.max.x == CastU16(p1.x) || box.max.x == CastU16(p2.x)) &&
            (box.min.y == CastU16(p1.y) || box.min.y == CastU16(p2.y)) &&
            (box.max.y == CastU16(p1.y) || box.max.y == CastU16(p2.y))
  {
    var (left, right) := OrderByX(p1, p2);
    CastU16Monotone(left.x, right.x);
    CastU16Monotone(MinF(p1.y, p2.y), p1.y);
    CastU16Monotone(MinF(p1.y, p2.y), p2.y);
    assert CastU16(MaxF(MinF(p1.y, p2.y), 0.0)) == CastU16(MinF(p1.y, p2.y));
    CastU16Monotone(p1.y, MaxF(p1.y, p2.y));
    CastU16Monotone(p2.y, MaxF(p1.y, p2.y));
    AABB(Pixel16(CastU16(left.x), CastU16(MaxF(MinF(p1.y, p2.y), 0.0))),
         Pixel16(CastU16(right.x), CastU16(MaxF(p1.y, p2.y))))
  }

  /** The plan of `draw_line(p1, p2, color)`. */
  function PlanOf(p1: Coord2D, p2: Coord2D, color: u32): (plan: Plan)
    ensures ValidPlan(plan)
    ensures plan.alongX == StepsAlongX(p1, p2)
  {
    var alongX := StepsAlongX(p1, p2);
    var base := if alongX then OrderByX(p1, p2).0.y else OrderByY(p1, p2).0.y;
    Plan(SegmentBox(p1, p2), alongX, SlopeOf(p1, p2), base, color)
  }

  /** The box is ordered and the axis agrees with the slope. */
  predicate ValidPlan(plan: Plan)
  {
    && Ordered(plan.box)
    && (plan.alongX <==> plan.slope.Finite? && -1.0 <= plan.slope.g <= 1.0)
  }

  /** First and last value of the loop variable (`min..max + 1`). */
  function Lo(plan: Plan): u16 { if plan.alongX then plan.box.min.x else plan.box.min.y }
  function Hi(plan: Plan): u16 { if plan.alongX then plan.box.max.x else plan.box.max.y }

  /** `max + 1` of the stepped axis does not overflow `u16` (the colour
      plays no part in it). */
  predicate RangeFits(p1: Coord2D, p2: Coord2D)
  {
    Hi(PlanOf(p1, p2, 0)) < 0xFFFF
  }

  /** The coordinate a write has on the stepped axis. */
  function StepCoord(plan: Plan, w: Write): u16
  {
    if plan.alongX then w.x else w.y
  }

  predicate InBox(box: AABB, w: Write)
  {
    ContainsPixel(box, Pixel16(w.x, w.y))
  }

  /** The minor-axis coordinate the line function gives at step `s`; `None`
      stands for NaN. The steep branch subtracts the start row from a row
      that is already relative to the box, so the start row counts twice,
      and it does not add `aabb.min.x` back. */
  function Minor(plan: Plan, s: int): (r: Option<real>)
    requires ValidPlan(plan)
    ensures r.None? <==> plan.slope.NotANumber?
    ensures plan.slope.Infinite? ==> r == Some(0.0)
    ensures plan.slope.Finite? && !plan.alongX && s as real == plan.box.min.y as real + plan.base ==>
              r == Some(0.0)
    ensures plan.alongX && s == plan.box.min.x ==> r == Some(plan.base)
  {
    match plan.slope
    case Finite(g) =>
      if plan.alongX then Some(g * (s - plan.box.min.x) as real + plan.base)
      else Some(((s - plan.box.min.y) as real - plan.base) / g)
    case Infinite => Some(0.0)
    case NotANumber => None
  }

  /** The fractional part `|v - (v as i32)|`. */
  function Decimal(v: real): (d: real)
    ensures 0.0 <= d
    ensures -2147483648.0 <= v < 2147483648.0 ==>
              d < 1.0 && (v - d == Trunc(v) as real || v + d == Trunc(v) as real)
    ensures 2147483649.0 <= v ==> 1.0 < d
  {
    var even := CastI32(v);
    var d := v - even as real;
    if d < 0.0 then -d else d
  }

  /** The two coverage-weighted colours of one step: `(1 - d) * color` for the
      lower pixel and `d * color` for the upper one, each truncated. */
  function Weights(d: real, color: u32): (w: (u32, u32))
    requires 0.0 <= d <= 1.0
    ensures w.0 <= color && w.1 <= color
    ensures color - 1 <= w.0 + w.1 <= color
    ensures d == 0.0 ==> w == (color, 0)
  {
    var c := color as real;
    WeightSplit(d, c);
    (CastU32((1.0 - d) * c), CastU32(d * c))
  }

  lemma WeightSplit(d: real, c: real)
    requires 0.0 <= d <= 1.0 && 0.0 <= c
    ensures 0.0 <= d * c <= c && 0.0 <= (1.0 - d) * c <= c
    ensures (1.0 - d) * c + d * c == c
  {
    assert d * c <= 1.0 * c;
    assert (1.0 - d) * c <= 1.0 * c;
  }

  /** `[w]` when `w` passes the clip guard, `[]` when it does not. */
  function Clip(box: AABB, w: Write): (r: seq<Write>)
    ensures r == [w] <==> InBox(box, w)
    ensures r == [] <==> !InBox(box, w)
  {
    if InBox(box, w) then [w] else []
  }

  /** The two candidate writes of step `s` whose minor coordinate is `v`:
      the pixel below `v` and the pixel at `v`. */
  function Candidates(plan: Plan, s: u16, v: real, d: real): (ab: (Write, Write))
    requires 0.0 <= d <= 1.0
    ensures StepCoord(plan, ab.0) == s && StepCoord(plan, ab.1) == s
    ensures ab.0.color <= plan.color && ab.1.color <= plan.color
    ensures plan.color - 1 <= ab.0.color + ab.1.color <= plan.color
  {
    var (low, high) := Weights(d, plan.color);
    if plan.alongX then (Write(s, CastU16(v - 1.0), low), Write(s, CastU16(v), high))
    else (Write(CastU16(v - 1.0), s, low), Write(CastU16(v), s, high))
  }

  /** What a stretch of drawing produced: the sink calls made, in order, and
      the panic that ended it, if one did. Writes made before a panic stay
      made. */
  datatype Drawn = Drawn(writes: seq<Write>, panic: Option<Panic>)

  /** Running the parts one after another: the writes of each part in turn,
      stopping after the first part that panics. */
  function Join(parts: seq<Drawn>): (d: Drawn)
    ensures d.panic.None? <==> forall i :: 0 <= i < |parts| ==> parts[i].panic.None?
    ensures d.panic.Some? ==> exists i :: 0 <= i < |parts| && parts[i].panic == d.panic
    ensures forall w <- d.writes :: exists i :: 0 <= i < |parts| && w in parts[i].writes
  {
    if |parts| == 0 then Drawn([], None)
    else if parts[0].panic.Some? then parts[0]
    else
      var rest := Join(parts[1..]);
      assert forall i :: 1 <= i < |parts| ==> parts[1..][i - 1] == parts[i];
      Drawn(parts[0].writes + rest.writes, rest.panic)
  }

  /** A panic in part `i` ends the run: the parts after it do not run, and
      the run ends with that panic. */
  lemma {:induction false} JoinStopsAtPanic(parts: seq<Drawn>, i: nat)
    requires i < |parts| && parts[i].panic.Some?
    requires forall j :: 0 <= j < i ==> parts[j].panic.None?
    ensures Join(parts) == Join(parts[..i + 1])
    ensures Join(parts).panic == parts[i].panic
  {
    if i > 0 {
      assert parts[..i + 1][1..] == parts[1..][..i];
      assert forall j :: 0 <= j < i - 1 ==> parts[1..][j] == parts[j + 1];
      JoinStopsAtPanic(parts[1..], i - 1);
    }
  }

  /** One iteration of either loop: the fractional-part assert, then the two
      guarded sink calls. */
  function Step(plan: Plan, s: u16): (r: Drawn)
    requires ValidPlan(plan)
    ensures Minor(plan, s).None? ==> r == Drawn([], Some(DecimalOutOfRange))
    ensures r.panic.Some? ==> r == Drawn([], Some(DecimalOutOfRange))
    ensures |r.writes| <= 2
    ensures forall w <- r.writes :: InBox(plan.box, w) && StepCoord(plan, w) == s && w.color <= plan.color
  {
    match Minor(plan, s)
    case None => Drawn([], Some(DecimalOutOfRange))
    case Some(v) =>
      var d := Decimal(v);
      if !(d <= 1.0 && d >= -1.0) then Drawn([], Some(DecimalOutOfRange))
      else
        var (a, b) := Candidates(plan, s, v, d);
        Drawn(Clip(plan.box, a) + Clip(plan.box, b), None)
  }

  /** The iterations `lo, lo + 1, ..., hi` of the loop, in order. */
  function Steps(plan: Plan, lo: int, hi: int): (steps: seq<Drawn>)
    requires ValidPlan(plan) && 0 <= lo && hi <= 0xFFFF
    ensures |steps| == if lo <= hi then hi - lo + 1 else 0
    ensures forall i :: 0 <= i < |steps| ==> steps[i] == Step(plan, lo + i)
  {
    if lo <= hi then seq(hi - lo + 1, i requires 0 <= i <= hi - lo => Step(plan, lo + i)) else []
  }

  /** Parts producing at most `k` writes each produce at most `k` times as
      many writes as there are parts. */
  lemma {:induction false} JoinLength(parts: seq<Drawn>, k: nat)
    requires forall i :: 0 <= i < |parts| ==> |parts[i].writes| <= k
    ensures |Join(parts).writes| <= k * |parts|
  {
    if |parts| > 0 && parts[0].panic.None? {
      assert forall i :: 1 <= i < |parts| ==> parts[1..][i - 1] == parts[i];
      JoinLength(parts[1..], k);
      MulSucc(k, |parts[1..]|);
    }
  }

  lemma MulSucc(k: nat, n: nat)
    ensures k * (n + 1) == k * n + k
  {
  }

  /** When iteration `i` only writes at stepped coordinate `lo + i`, the
      iterations together write in non-decreasing order of that coordinate. */
  lemma {:induction false} JoinInStepOrder(plan: Plan, parts: seq<Drawn>, lo: int)
    requires forall i :: 0 <= i < |parts| ==>
               forall w <- parts[i].writes :: StepCoord(plan, w) == lo + i
    ensures InStepOrder(plan, Join(parts).writes)
    ensures forall w <- Join(parts).writes :: lo <= StepCoord(plan, w)
  {
    if |parts| > 0 && parts[0].panic.None? {
      assert forall i :: 1 <= i < |parts| ==> parts[1..][i - 1] == parts[i];
      JoinInStepOrder(plan, parts[1..], lo + 1);
      var first := parts[0].writes;
      var rest := Join(parts[1..]).writes;
      assert Join(parts).writes == first + rest;
      assert forall w <- first :: StepCoord(plan, w) == lo;
      assert forall w <- rest :: lo < StepCoord(plan, w);
    }
  }

  /** The writes come in non-decreasing order of their stepped coordinate. */
  predicate InStepOrder(plan: Plan, ws: seq<Write>)
  {
    forall i, j :: 0 <= i < j < |ws| ==> StepCoord(plan, ws[i]) <= StepCoord(plan, ws[j])
  }

  /** `Renderer::draw_line`: the loop over the stepped axis from the clip
      box's minimum to its maximum inclusive. Computing the exclusive end
      `max + 1` overflows before the first iteration when `max` is 65535. */
  function DrawLine(p1: Coord2D, p2: Coord2D, color: u32): (d: Drawn)
    ensures !RangeFits(p1, p2) <==> d == Drawn([], Some(RangeOverflow))
    ensures RangeFits(p1, p2) && p1 == p2 ==> d == Drawn([], Some(DecimalOutOfRange))
    ensures RangeFits(p1, p2) ==> d.panic.None? || d.panic == Some(DecimalOutOfRange)
    ensures |d.writes| <= 2 * (Hi(PlanOf(p1, p2, color)) - Lo(PlanOf(p1, p2, color)) + 1)
  {
    var plan := PlanOf(p1, p2, color);
    assert Hi(plan) == Hi(PlanOf(p1, p2, 0));
    if Hi(plan) == 0xFFFF then Drawn([], Some(RangeOverflow))
    else
      var steps := Steps(plan, Lo(plan), Hi(plan));
      JoinLength(steps, 2);
      assert p1 == p2 ==> steps[0] == Drawn([], Some(DecimalOutOfRange));
      Join(steps)
  }

  /** Every write of `draw_line` lies in the segment's clip box, is no
      brighter than the colour, and the writes advance along the stepped axis. */
  lemma DrawLineWrites(p1: Coord2D, p2: Coord2D, color: u32)
    ensures forall w <- DrawLine(p1, p2, color).writes ::
              InBox(SegmentBox(p1, p2), w) && w.color <= color
    ensures InStepOrder(PlanOf(p1, p2, color), DrawLine(p1, p2, color).writes)
  {
    var plan := PlanOf(p1, p2, color);
    if Hi(plan) < 0xFFFF {
      var steps := Steps(plan, Lo(plan), Hi(plan));
      JoinInStepOrder(plan, steps, Lo(plan));
    }
  }

  /** Segment `i` of a polyline joins `data[i]` and `data[i + 1]`. */
  function Segment(data: seq<Coord2D>, i: nat): Drawn
    requires i < |data| - 1
  {
    DrawLine(data[i], data[i + 1], LINE_COLOR)
  }

  /** The segments of a polyline, in input order. */
  function Segments(data: seq<Coord2D>): (segs: seq<Drawn>)
    requires |data| >= 1
    ensures |segs| == |data| - 1
    ensures forall i: nat :: i < |segs| ==> segs[i] == Segment(data, i)
  {
    seq(|data| - 1, (i: nat) requires i < |data| - 1 => Segment(data, i))
  }

  /** `Renderer::draw_lines`: `len() - 1` segments in input order, all with
      the fixed colour; the box argument is never used. */
  function DrawLines(aabb: AABB, data: seq<Coord2D>): (d: Drawn)
    ensures |data| == 0 ==> d == Drawn([], Some(LengthUnderflow))
    ensures |data| == 1 ==> d == Drawn([], None)
    ensures |data| >= 1 ==> d == Join(Segments(data))
    ensures |data| >= 1 ==>
              (d.panic.None? <==> forall i: nat :: i < |data| - 1 ==> Segment(data, i).panic.None?)
  {
    if |data| == 0 then Drawn([], Some(LengthUnderflow)) else Join(Segments(data))
  }

  /** Every write of `draw_lines` has at most the line colour and lies in the
      clip box of one of the segments. */
  lemma DrawLinesWrites(aabb: AABB, data: seq<Coord2D>)
    ensures forall w <- DrawLines(aabb, data).writes ::
              w.color <= LINE_COLOR &&
              exists i :: 0 <= i < |data| - 1 && InBox(SegmentBox(data[i], data[i + 1]), w)
  {
    if |data| >= 1 {
      var segs := Segments(data);
      forall w <- DrawLines(aabb, data).writes
        ensures w.color <= LINE_COLOR &&
                exists i :: 0 <= i < |data| - 1 && InBox(SegmentBox(data[i], data[i + 1]), w)
      {
        var i :| 0 <= i < |segs| && w in segs[i].writes;
        DrawLineWrites(data[i], data[i + 1], LINE_COLOR);
      }
    }
  }
}

=== FILE: renderer_properties.dfy ===
/** Properties of the line stepper: axis choice, symmetry, the loop's range,
    when it panics, and what it draws for a few characteristic segments. */
module RendererProperties {
  import opened Casts
  import opened Coordinates
  import opened Results
  import opened Aabb
  import opened Renderer

  /** The x axis is stepped exactly when the endpoints differ in x and the
      vertical change is at most the horizontal one. */
  lemma AxisChoice(p1: Coord2D, p2: Coord2D)
    ensures StepsAlongX(p1, p2) <==> p1.x != p2.x && AbsR(p2.y - p1.y) <= AbsR(p2.x - p1.x)
  {
    var s := SlopeOf(p1, p2);
    if p1.x != p2.x {
      var dx := p2.x - p1.x;
      var dy := p2.y - p1.y;
      assert s.g * dx == dy;
      assert StepsAlongX(p1, p2) <==> -1.0 <= s.g <= 1.0;
      if dx > 0.0 {
        UnitBoundScales(s.g, dx, dy);
        assert AbsR(dx) == dx;
      } else {
        assert (-s.g) * (-dx) == dy;
        UnitBoundScales(-s.g, -dx, dy);
        assert AbsR(dx) == -dx;
      }
    }
  }

  lemma UnitBoundScales(g: real, d: real, e: real)
    requires 0.0 < d && g * d == e
    ensures -1.0 <= g <= 1.0 <==> -d <= e <= d
  {
    if g > 1.0 {
      assert (g - 1.0) * d > 0.0;
    } else if g < -1.0 {
      assert (-1.0 - g) * d > 0.0;
    } else {
      assert (1.0 - g) * d >= 0.0;
      assert (g + 1.0) * d >= 0.0;
    }
  }

  /** Swapping the endpoints changes nothing that `draw_line` computes. */
  lemma PlanSymmetric(p1: Coord2D, p2: Coord2D, color: u32)
    ensures PlanOf(p1, p2, color) == PlanOf(p2, p1, color)
  {
    if p1.x == p2.x {
      assert SegmentBox(p1, p2) == SegmentBox(p2, p1);
    }
  }

  /** `draw_line(p1, p2)` and `draw_line(p2, p1)` make the same writes. */
  lemma DrawLineSymmetric(p1: Coord2D, p2: Coord2D, color: u32)
    ensures RangeFits(p1, p2) <==> RangeFits(p2, p1)
    ensures DrawLine(p1, p2, color) == DrawLine(p2, p1, color)
  {
    PlanSymmetric(p1, p2, color);
    PlanSymmetric(p1, p2, 0);
  }

  /** Running one more part after a run that did not panic adds that part's
      writes and ends with its panic; after a panic nothing more runs. */
  lemma {:induction false} JoinAppend(parts: seq<Drawn>, q: Drawn)
    ensures var j := Join(parts);
            Join(parts + [q]) == if j.panic.Some? then j else Drawn(j.writes + q.writes, q.panic)
  {
    if |parts| == 0 {
      assert parts + [q] == [q];
      assert [q][1..] == [];
      assert q.writes + [] == q.writes;
    } else {
      assert (parts + [q])[0] == parts[0];
      assert (parts + [q])[1..] == parts[1..] + [q];
      if parts[0].panic.None? {
        JoinAppend(parts[1..], q);
      }
    }
  }

  /** Parts none of which writes or panics produce nothing. */
  lemma {:induction false} JoinOfEmpty(parts: seq<Drawn>)
    requires forall i :: 0 <= i < |parts| ==> parts[i] == Drawn([], None)
    ensures Join(parts) == Drawn([], None)
  {
    if |parts| > 0 {
      assert forall i :: 1 <= i < |parts| ==> parts[1..][i - 1] == parts[i];
      JoinOfEmpty(parts[1..]);
      assert parts[0].writes + Join(parts[1..]).writes == [];
    }
  }

  /** Parts of which part `i` writes exactly pixel (lo + i, row) write the row. */
  lemma {:induction false} JoinOfRow(parts: seq<Drawn>, lo: int, row: u16, color: u32)
    requires 0 <= lo && lo + |parts| <= 0x1_0000
    requires forall i :: 0 <= i < |parts| ==> parts[i] == Drawn([Write(lo + i, row, color)], None)
    ensures Join(parts).panic.None? && |Join(parts).writes| == |parts|
    ensures forall i :: 0 <= i < |parts| ==> Join(parts).writes[i] == Write(lo + i, row, color)
  {
    if |parts| > 0 {
      assert forall i :: 1 <= i < |parts| ==> parts[1..][i - 1] == parts[i];
      JoinOfRow(parts[1..], lo + 1, row, color);
    }
  }

  lemma QuotientShrinks(a: real, g: real)
    requires 1.0 <= AbsR(g)
    ensures AbsR(a / g) <= AbsR(a)
  {
    var q := a / g;
    assert q * g == a;
    if q >= 0.0 {
      if g > 0.0 { assert q * g >= q * 1.0; } else { assert q * (-g) >= q * 1.0; }
    } else {
      if g > 0.0 { assert (-q) * g >= (-q) * 1.0; } else { assert (-q) * (-g) >= (-q) * 1.0; }
    }
  }

  lemma ProductShrinks(g: real, k: real)
    requires -1.0 <= g <= 1.0 && 0.0 <= k
    ensures -k <= g * k <= k
  {
    assert g * k <= 1.0 * k;
    assert (-1.0) * k <= g * k;
  }

  /** With the minor-axis start within a billion of the origin, every minor
      coordinate stays within two billion of it, well inside `i32`. */
  lemma MinorInRange(plan: Plan, s: int)
    requires ValidPlan(plan) && !plan.slope.NotANumber?
    requires -1000000000.0 <= plan.base <= 1000000000.0
    requires Lo(plan) <= s <= 0xFFFF
    ensures Minor(plan, s).Some?
    ensures -2000000000.0 <= Minor(plan, s).value <= 2000000000.0
  {
    if plan.slope.Finite? {
      if plan.alongX {
        MinorInRangeAlongX(plan, s);
      } else {
        MinorInRangeSteep(plan, s);
        assert 0 <= s - plan.box.min.y <= 0xFFFF;
      }
    }
  }

  /** Along x the gradient is at most 1 in size, so the minor coordinate
      moves away from its start by at most the number of steps taken. */
  lemma MinorInRangeAlongX(plan: Plan, s: int)
    requires ValidPlan(plan) && plan.alongX
    requires Lo(plan) <= s
    ensures Minor(plan, s).Some?
    ensures AbsR(Minor(plan, s).value - plan.base) <= (s - plan.box.min.x) as real
  {
    var g := plan.slope.g;
    var k := (s - plan.box.min.x) as real;
    var e := g * k;
    MinorAlongX(plan, s, e);
    ProductShrinks(g, k);
  }

  lemma MinorAlongX(plan: Plan, s: int, e: real)
    requires ValidPlan(plan) && plan.alongX
    requires e == plan.slope.g * (s - plan.box.min.x) as real
    ensures Minor(plan, s) == Some(e + plan.base)
  {
    var m := Minor(plan, s);
    assert m.Some?;
    assert m.value == plan.slope.g * (s - plan.box.min.x) as real + plan.base;
  }

  /** In the steep branch the gradient is at least 1 in size, so the column
      is no farther from 0 than the row offset minus the start row. */
  lemma MinorInRangeSteep(plan: Plan, s: int)
    requires ValidPlan(plan) && !plan.alongX && plan.slope.Finite?
    ensures Minor(plan, s).Some?
    ensures AbsR(Minor(plan, s).value) <= AbsR((s - plan.box.min.y) as real - plan.base)
  {
    var g := plan.slope.g;
    assert plan.slope == Finite(g);
    var a := (s - plan.box.min.y) as real - plan.base;
    assert Minor(plan, s) == Some(a / g);
    QuotientShrinks(a, g);
  }

  /** `draw_line` panics only on coincident endpoints, as long as the y
      coordinates are within a billion of the origin. */
  lemma DrawLineTotal(p1: Coord2D, p2: Coord2D, color: u32)
    requires RangeFits(p1, p2) && p1 != p2
    requires -1000000000.0 <= p1.y <= 1000000000.0 && -1000000000.0 <= p2.y <= 1000000000.0
    ensures DrawLine(p1, p2, color).panic.None?
  {
    var plan := PlanOf(p1, p2, color);
    assert Hi(plan) == Hi(PlanOf(p1, p2, 0));
    var steps := Steps(plan, Lo(plan), Hi(plan));
    forall i | 0 <= i < |steps|
      ensures steps[i].panic.None?
    {
      MinorInRange(plan, Lo(plan) + i);
    }
  }

  /** A flat segment reaching x = 65535 (or beyond, where the cast
      saturates) panics computing the loop end before it draws anything. */
  lemma FarRightSegmentOverflows(color: u32)
    ensures DrawLine(Coord2D(0.0, 0.0), Coord2D(70000.0, 0.0), color) == Drawn([], Some(RangeOverflow))
  {
    var p1, p2 := Coord2D(0.0, 0.0), Coord2D(70000.0, 0.0);
    FlatSlope(p1, p2);
    assert CastU16(70000.0) == 0xFFFF;
    assert Hi(PlanOf(p1, p2, 0)) == 0xFFFF;
  }

  /** A steep step whose minor coordinate is not positive lands on column 0,
      which a clip box starting right of column 0 drops: the steep branch
      never adds the box's left edge. */
  lemma SteepStepLeftOfBox(plan: Plan, s: u16)
    requires ValidPlan(plan) && !plan.alongX && 1 <= plan.box.min.x
    requires Minor(plan, s).Some? && -1.0 < Minor(plan, s).value <= 0.0
    ensures Step(plan, s) == Drawn([], None)
  {
  }

  /** A vertical segment right of column 0 draws nothing at all. */
  lemma VerticalSegmentDrawsNothing(p1: Coord2D, p2: Coord2D, color: u32)
    requires RangeFits(p1, p2)
    requires p1.x == p2.x && 1.0 <= p1.x && p1.y != p2.y
    ensures DrawLine(p1, p2, color) == Drawn([], None)
  {
    var plan := PlanOf(p1, p2, color);
    assert Hi(plan) == Hi(PlanOf(p1, p2, 0));
    var steps := Steps(plan, Lo(plan), Hi(plan));
    forall i | 0 <= i < |steps|
      ensures steps[i] == Drawn([], None)
    {
      SteepStepLeftOfBox(plan, Lo(plan) + i);
    }
    JoinOfEmpty(steps);
  }

  /** The segment (10,10)-(15,17) has gradient 7/5, so it steps along y over
      the 8 rows 10..17; every sample falls left of column 10 and is clipped. */
  lemma SteepScenario(color: u32)
    ensures RangeFits(Coord2D(10.0, 10.0), Coord2D(15.0, 17.0))
    ensures !StepsAlongX(Coord2D(10.0, 10.0), Coord2D(15.0, 17.0))
    ensures var plan := PlanOf(Coord2D(10.0, 10.0), Coord2D(15.0, 17.0), color);
            Lo(plan) == 10 && Hi(plan) == 17
    ensures DrawLine(Coord2D(10.0, 10.0), Coord2D(15.0, 17.0), color) == Drawn([], None)
  {
    var p1, p2 := Coord2D(10.0, 10.0), Coord2D(15.0, 17.0);
    assert SlopeOf(p1, p2) == Finite(1.4);
    var plan := PlanOf(p1, p2, color);
    assert plan.box == AABB(Pixel16(10, 10), Pixel16(15, 17));
    assert plan.base == 10.0;
    var steps := Steps(plan, 10, 17);
    forall i | 0 <= i < 8
      ensures steps[i] == Drawn([], None)
    {
      assert Minor(plan, 10 + i) == Some((i as real - 10.0) / 1.4);
      assert Step(plan, 10 + i) == Drawn([], None);
    }
    JoinOfEmpty(steps);
  }

  /** The segment (0,10)-(10,50) has gradient 4 and ends at column 10 on row
      50, but the steep branch subtracts the start row twice, from the row
      already taken relative to the box: on row 50 it samples column
      (40 - 10) / 4 = 7.5 and writes columns 6 and 7, both inside the box,
      at half the colour each. */
  lemma SteepRowShifted(color: u32)
    ensures var plan := PlanOf(Coord2D(0.0, 10.0), Coord2D(10.0, 50.0), color);
            Step(plan, 50) == Drawn([Write(6, 50, CastU32(0.5 * color as real)),
                                     Write(7, 50, CastU32(0.5 * color as real))], None)
  {
    var p1, p2 := Coord2D(0.0, 10.0), Coord2D(10.0, 50.0);
    assert SlopeOf(p1, p2) == Finite(4.0);
    var plan := PlanOf(p1, p2, color);
    assert plan.box == AABB(Pixel16(0, 10), Pixel16(10, 50));
    assert plan.base == 10.0;
    assert Minor(plan, 50) == Some(7.5);
    assert Decimal(7.5) == 0.5;
    assert CastU16(6.5) == 6 && CastU16(7.5) == 7;
  }

  /** A steep segment's line: with `left` the endpoint of smaller y, both
      endpoints lie on `x = left.x + (y - left.y) / g`. */
  lemma SteepLine(p1: Coord2D, p2: Coord2D)
    requires !StepsAlongX(p1, p2) && SlopeOf(p1, p2).Finite?
    ensures var g := SlopeOf(p1, p2).g;
            var left := OrderByY(p1, p2).0;
            && g != 0.0
            && p1.x == left.x + (p1.y - left.y) / g
            && p2.x == left.x + (p2.y - left.y) / g
  {
    var g := SlopeOf(p1, p2).g;
    var left := OrderByY(p1, p2).0;
    assert g != 0.0;
    OnLine(left, p1, g, p1, p2);
    OnLine(left, p2, g, p1, p2);
  }

  /** The steep branch samples that line shifted along x by a constant: the
      sample on row `s` is the line's column on that row less the signed
      constant `left.x + aabb.min.y / g`, which is negative for a negative
      gradient when `aabb.min.y / |g|` exceeds `left.x`. */
  lemma SteepSampleShift(p1: Coord2D, p2: Coord2D, color: u32, s: int)
    requires !StepsAlongX(p1, p2) && SlopeOf(p1, p2).Finite?
    ensures var g := SlopeOf(p1, p2).g;
            var left := OrderByY(p1, p2).0;
            var plan := PlanOf(p1, p2, color);
            Minor(plan, s) ==
              Some((left.x + (s as real - left.y) / g) - (left.x + plan.box.min.y as real / g))
  {
    var g := SlopeOf(p1, p2).g;
    var left := OrderByY(p1, p2).0;
    var plan := PlanOf(p1, p2, color);
    assert plan.slope == Finite(g) && !plan.alongX && plan.base == left.y;
    var m := plan.box.min.y;
    assert g != 0.0;
    SteepMinor(plan, s, g);
    ShiftedColumn(left.x, left.y, s as real, m as real, g);
  }

  lemma SteepMinor(plan: Plan, s: int, g: real)
    requires ValidPlan(plan) && !plan.alongX && plan.slope == Finite(g)
    ensures Minor(plan, s) == Some(((s as real - plan.box.min.y as real) - plan.base) / g)
  {
  }

  /** An endpoint `q` lies on the line of gradient `g` through `left`, when
      `left` is itself one of the two endpoints. */
  lemma OnLine(left: Coord2D, q: Coord2D, g: real, p1: Coord2D, p2: Coord2D)
    requires g != 0.0 && g * (p2.x - p1.x) == p2.y - p1.y
    requires left == p1 || left == p2
    requires q == p1 || q == p2
    ensures q.x == left.x + (q.y - left.y) / g
  {
    if left != q {
      assert g * (q.x - left.x) == q.y - left.y;
      assert (q.y - left.y) / g == q.x - left.x;
    }
  }

  /** `((y - m) - ly) / g` is the line's column at `y` less the constant
      `lx + m / g`. */
  lemma ShiftedColumn(lx: real, ly: real, y: real, m: real, g: real)
    requires g != 0.0
    ensures ((y - m) - ly) / g == (lx + (y - ly) / g) - (lx + m / g)
  {
    assert ((y - m) - ly) / g == (y - ly) / g - m / g;
  }

  /** (0,120)-(5,100) has gradient -4; its start row is 100 and the constant
      is 5 + 100 / -4 = -20, so row 100 is sampled at column 25 rather than at
      the true column 5, right of the box's columns 0 to 5. */
  lemma SteepSampleRightOfBox(color: u32)
    ensures var plan := PlanOf(Coord2D(0.0, 120.0), Coord2D(5.0, 100.0), color);
            Minor(plan, 100) == Some(25.0) && Step(plan, 100) == Drawn([], None)
  {
    var p1, p2 := Coord2D(0.0, 120.0), Coord2D(5.0, 100.0);
    assert SlopeOf(p1, p2) == Finite(-4.0);
    var plan := PlanOf(p1, p2, color);
    assert plan.box == AABB(Pixel16(0, 100), Pixel16(5, 120));
    assert plan.base == 100.0;
    assert Minor(plan, 100) == Some(25.0);
    assert Decimal(25.0) == 0.0;
    assert CastU16(24.0) == 24 && CastU16(25.0) == 25;
  }

  lemma FlatSlope(p1: Coord2D, p2: Coord2D)
    requires p1.x != p2.x && p1.y == p2.y
    ensures SlopeOf(p1, p2) == Finite(0.0)
  {
    var (left, right) := OrderByX(p1, p2);
    assert right.y - left.y == 0.0;
  }

  /** On a flat plan lying on pixel row `row`, step `s` keeps only the
      zero-weight pixel on the row itself. */
  lemma RowStep(plan: Plan, s: u16, row: u16)
    requires ValidPlan(plan) && plan.alongX && plan.slope == Finite(0.0)
    requires 1 <= row && plan.base == row as real && plan.box.min.y == row && plan.box.max.y == row
    requires plan.box.min.x <= s <= plan.box.max.x
    ensures Step(plan, s) == Drawn([Write(s, row, 0)], None)
  {
    assert Minor(plan, s) == Some(row as real);
    assert Trunc(row as real) == row;
    assert Decimal(row as real) == 0.0;
    var (a, b) := Candidates(plan, s, row as real, 0.0);
    assert CastU16(row as real - 1.0) == row - 1;
    assert CastU16(row as real) == row;
    assert Weights(0.0, plan.color) == (plan.color, 0);
    assert a.y != row && b == Write(s, row, 0);
    assert Clip(plan.box, a) == [] && Clip(plan.box, b) == [b];
    assert Step(plan, s) == Drawn(Clip(plan.box, a) + Clip(plan.box, b), None);
    assert Clip(plan.box, a) + Clip(plan.box, b) == [Write(s, row, 0)];
  }

  /** The plan of a horizontal segment lying on pixel row `row`. */
  lemma HorizontalPlan(p1: Coord2D, p2: Coord2D, row: u16, color: u32)
    requires RangeFits(p1, p2)
    requires p1.x != p2.x && p1.y == row as real && p2.y == row as real
    ensures var plan := PlanOf(p1, p2, color);
            && plan.alongX && plan.slope == Finite(0.0) && plan.base == row as real
            && plan.box.min.y == row && plan.box.max.y == row
            && Hi(plan) < 0xFFFF
  {
    FlatSlope(p1, p2);
    assert Hi(PlanOf(p1, p2, color)) == Hi(PlanOf(p1, p2, 0));
  }

  /** A horizontal segment lying exactly on pixel row `row` (above row 0) is drawn with
      colour 0 in every column: the full-weight pixel sits on row `row - 1`,
      outside the segment's own clip box, and only the zero-weight one is kept. */
  lemma HorizontalRowDrawnWithZeroWeight(p1: Coord2D, p2: Coord2D, row: u16, color: u32)
    requires RangeFits(p1, p2)
    requires p1.x != p2.x && 1 <= row && p1.y == row as real && p2.y == row as real
    ensures var plan := PlanOf(p1, p2, color);
            var r := DrawLine(p1, p2, color);
            && r.panic.None?
            && |r.writes| == Hi(plan) - Lo(plan) + 1
            && forall i :: 0 <= i < |r.writes| ==> r.writes[i] == Write(Lo(plan) + i, row, 0)
  {
    HorizontalPlan(p1, p2, row, color);
    RowDrawn(PlanOf(p1, p2, color), row);
  }

  /** A flat plan on pixel row `row` draws the row with colour 0. */
  lemma RowDrawn(plan: Plan, row: u16)
    requires ValidPlan(plan) && plan.alongX && plan.slope == Finite(0.0)
    requires 1 <= row && plan.base == row as real && plan.box.min.y == row && plan.box.max.y == row
    requires Hi(plan) < 0xFFFF
    ensures var r := Join(Steps(plan, Lo(plan), Hi(plan)));
            && r.panic.None?
            && |r.writes| == Hi(plan) - Lo(plan) + 1
            && forall i :: 0 <= i < |r.writes| ==> r.writes[i] == Write(Lo(plan) + i, row, 0)
  {
    RowSteps(plan, row);
    JoinOfRow(Steps(plan, Lo(plan), Hi(plan)), Lo(plan), row, 0);
  }

  lemma RowSteps(plan: Plan, row: u16)
    requires ValidPlan(plan) && plan.alongX && plan.slope == Finite(0.0)
    requires 1 <= row && plan.base == row as real && plan.box.min.y == row && plan.box.max.y == row
    requires Hi(plan) < 0xFFFF
    ensures forall i :: 0 <= i < |Steps(plan, Lo(plan), Hi(plan))| ==>
              Steps(plan, Lo(plan), Hi(plan))[i] == Drawn([Write(Lo(plan) + i, row, 0)], None)
  {
    forall s: u16 | Lo(plan) <= s <= Hi(plan)
      ensures Step(plan, s) == Drawn([Write(s, row, 0)], None)
    {
      RowStep(plan, s, row);
    }
  }

  /** One part on its own is run as it is. */
  lemma JoinSingle(q: Drawn)
    ensures Join([q]) == q
  {
    assert [q][1..] == [];
    assert q.writes + [] == q.writes;
  }

  /** The segments of a polyline one point longer: the old ones, then the
      segment from the old last point to the new one. */
  lemma SegmentsExtend(data: seq<Coord2D>, p: Coord2D)
    requires |data| >= 1
    ensures Segments(data + [p]) == Segments(data) + [Segment(data + [p], |data| - 1)]
    ensures Segment(data + [p], |data| - 1) == DrawLine(data[|data| - 1], p, LINE_COLOR)
  {
    var ext := data + [p];
    var a := Segments(ext);
    var b := Segments(data) + [Segment(ext, |data| - 1)];
    forall i | 0 <= i < |a|
      ensures a[i] == b[i]
    {
      if i < |data| - 1 {
        SegmentOfPrefix(data, p, i);
      }
    }
    assert a == b;
    LastSegment(data, p);
  }

  /** Extending a polyline leaves its existing segments as they were. */
  lemma SegmentOfPrefix(data: seq<Coord2D>, p: Coord2D, i: nat)
    requires i < |data| - 1
    ensures Segment(data + [p], i) == Segment(data, i)
  {
    assert (data + [p])[i] == data[i] && (data + [p])[i + 1] == data[i + 1];
  }

  /** The new segment joins the old last point to the added one. */
  lemma LastSegment(data: seq<Coord2D>, p: Coord2D)
    requires |data| >= 1
    ensures Segment(data + [p], |data| - 1) == DrawLine(data[|data| - 1], p, LINE_COLOR)
  {
    assert (data + [p])[|data| - 1] == data[|data| - 1] && (data + [p])[|data|] == p;
  }

  /** Drawing a polyline one point longer draws the old polyline and then,
      unless the old one panicked, the new last segment: segments are drawn
      in input order and a panic ends the drawing. */
  lemma PolylineAppend(box: AABB, data: seq<Coord2D>, p: Coord2D)
    requires |data| >= 1
    ensures var before := DrawLines(box, data);
            var last := DrawLine(data[|data| - 1], p, LINE_COLOR);
            DrawLines(box, data + [p]) ==
              if before.panic.Some? then before else Drawn(before.writes + last.writes, last.panic)
  {
    SegmentsExtend(data, p);
    JoinAppend(Segments(data), Segment(data + [p], |data| - 1));
  }

  /** A polyline of two points is its single segment. */
  lemma PolylineOfTwo(box: AABB, a: Coord2D, b: Coord2D)
    ensures DrawLines(box, [a, b]) == DrawLine(a, b, LINE_COLOR)
  {
    assert Segments([a, b]) == [Segment([a, b], 0)];
    JoinSingle(Segment([a, b], 0));
  }

  /** `draw_lines` ignores its box argument. */
  lemma DrawLinesIgnoresBox(a: AABB, b: AABB, data: seq<Coord2D>)
    ensures DrawLines(a, data) == DrawLines(b, data)
  {
  }
}

=== FILE: results.dfy ===
/** Failure-carrying return values used where the Rust code panics. */
module Results {

  /** Either the value an operation produced, or the reason it panicked. */
  datatype Result<+T, +E> = Ok(value: T) | Err(error: E)

  datatype Option<+T> = None | Some(value: T)
}

=== FILE: screen_test.dfy ===
/** The repository's end-to-end check: fit the unit square into a box, draw
    it as a polyline, and every pixel written lies on the 480x272 screen. */
module ScreenTest {
  import opened Casts
  import opened Coordinates
  import opened Results
  import opened Aabb
  import opened Renderer
  import opened FitProperties
  import opened RendererProperties

  /** A pixel cast from a coordinate below a bound stays below it. */
  lemma CastBelow(r: real, bound: nat)
    requires r < bound as real && 1 <= bound <= 0xFFFF
    ensures CastU16(r) < bound
  {
  }

  /** A polyline whose points all lie left of x = 480 and above y = 272
      writes only pixels on the screen: every write lies in the clip box of
      some segment, and those boxes are spanned by the truncated endpoints. */
  lemma DrawLinesOnScreen(aabb: AABB, data: seq<Coord2D>)
    requires forall i :: 0 <= i < |data| ==> data[i].x < SCREEN_WIDTH && data[i].y < SCREEN_HEIGHT
    ensures forall w <- DrawLines(aabb, data).writes :: w.x < 480 && w.y < 272
  {
    DrawLinesWrites(aabb, data);
    forall w <- DrawLines(aabb, data).writes
      ensures w.x < 480 && w.y < 272
    {
      var i :| 0 <= i < |data| - 1 && InBox(SegmentBox(data[i], data[i + 1]), w);
      CastBelow(data[i].x, 480);
      CastBelow(data[i + 1].x, 480);
      CastBelow(data[i].y, 272);
      CastBelow(data[i + 1].y, 272);
    }
  }

  /** A segment between on-screen points never reaches the `u16` limit. */
  lemma OnScreenRangeFits(p1: Coord2D, p2: Coord2D)
    requires p1.x < SCREEN_WIDTH && p1.y < SCREEN_HEIGHT
    requires p2.x < SCREEN_WIDTH && p2.y < SCREEN_HEIGHT
    ensures RangeFits(p1, p2)
  {
    CastBelow(p1.x, 480);
    CastBelow(p2.x, 480);
    CastBelow(p1.y, 272);
    CastBelow(p2.y, 272);
  }

  /** A polyline of on-screen points, no two consecutive ones equal, is
      drawn without panicking. */
  lemma DrawLinesPanicFree(aabb: AABB, data: seq<Coord2D>)
    requires |data| >= 1
    requires forall i :: 0 <= i < |data| ==>
               data[i].x < SCREEN_WIDTH && 0.0 <= data[i].y < SCREEN_HEIGHT
    requires forall i :: 0 <= i < |data| - 1 ==> data[i] != data[i + 1]
    ensures DrawLines(aabb, data).panic.None?
  {
    forall i: nat | i < |data| - 1
      ensures Segment(data, i).panic.None?
    {
      OnScreenRangeFits(data[i], data[i + 1]);
      DrawLineTotal(data[i], data[i + 1], LINE_COLOR);
    }
  }

  /** `test_draw_line`: the unit square fitted into (10,10)-(100,100)
      passes every assert of the fit, and drawing it as a polyline panics
      nowhere and writes only on-screen pixels. */
  lemma UnitSquareDrawnOnScreen()
    ensures var box := AABB(Pixel16(10, 10), Pixel16(100, 100));
            var fitted := FitInAabb(box, [Coord2D(0.0, 0.0), Coord2D(0.0, 1.0),
                                          Coord2D(1.0, 1.0), Coord2D(1.0, 0.0)]);
            && fitted.Ok?
            && DrawLines(box, fitted.value).panic.None?
            && forall w <- DrawLines(box, fitted.value).writes :: w.x < 480 && w.y < 272
  {
    UnitSquareFits();
    var box := AABB(Pixel16(10, 10), Pixel16(100, 100));
    var fitted := [Coord2D(10.0001, 10.0001), Coord2D(10.0001, 100.0),
                   Coord2D(100.0, 100.0), Coord2D(100.0, 10.0001)];
    DrawLinesOnScreen(box, fitted);
    DrawLinesPanicFree(box, fitted);
  }
}
